=== FILE: README.md ===
# Kernel config module audit, modelled in Dafny

The script `scripts/audit-modules.py` turns a Linux kernel `.config` into a
configuration with no loadable modules. Every line of the form
`CONFIG_<NAME>=m` (optionally followed by whitespace) is rewritten:

- to `CONFIG_<NAME>=y` when the option name matches one entry of the
  allow-list `KEEP_PATTERNS`;
- to the comment `# CONFIG_<NAME> is not set` when it matches none.

Every other line is copied unchanged. The script also returns the kept
names and the disabled names, in the order it meets them.

This project models that core as pure functions:

- `options.dfy` and `chars.dfy` give the `Option` type and the character
  classes `\w` and `\s`. `\s` is every character Python's `str.isspace`
  accepts, including the ASCII separators U+001C to U+001F.
- `module_line.dfy` (module `ModuleLine`) holds the line template
  `^(CONFIG_)(\w+)=m\s*$`. A declarative reading, `IsModuleAssignment`, is
  proved equivalent to a parser, `ParseModuleLine`, in both directions.
- `keep_list.dfy` (module `KeepList`) is the allow-list and `should_keep`.
  Each table entry is either `^NAME$`, written `Exact(NAME)`, or `^NAME`,
  written `Prefix(NAME)`. The one character class in the table,
  `^NFS_V[234]`, is written as three prefixes. The table is split into the
  source's own sections.
- `keep_regex.dfy` (module `KeepRegex`) gives the regular expressions of
  the shapes the table is written in, a reader `Compile` for their pattern
  text, and the `re.search` semantics. It proves that an `Exact` or `Prefix`
  entry matches exactly the names its pattern text finds, for a name
  without a line feed (every name the template captures,
  `Chars.NameHasNoNewline`).
- `keep_source.dfy` (module `KeepSource`) transcribes `KEEP_PATTERNS` a
  second time, directly from the pattern texts, as regular expressions. It
  proves that each section of this transcription is the same section of the
  `Exact`/`Prefix` encoding, read as regular expressions. It also proves
  that `should_keep` keeps a name exactly when `re.search` of some
  transcribed pattern finds it, for a name without a line feed (every name
  the template captures, `Chars.NameHasNoNewline`).
- `keep_families.dfy` (module `KeepFamilies`) proves what the two entry
  shapes mean for whole families of option names.
- `rewrite.dfy` (module `Rewrite`) is one iteration of the loop.
- `audit.dfy` (module `ConfigAudit`) is the loop of `audit_config`. It has a
  reference function `Audit` and a method `AuditConfig` that mirrors the
  source loop and is proved equal to it. The properties proved here cover
  the partition of the names, their order, idempotence and line-locality.
- `scenarios.dfy` (module `Scenarios`) states what the model does with
  concrete lines. Most scenarios are stated for any allow-list that gives the name
  the verdict in question. The `KernelList...` scenarios instantiate them
  with the source's own table.

The allow-list is a parameter, `allow`, of `RewriteLine`, `Audit` and
`AuditConfig`. The source's own table is `KeepList.KeepPatterns`. Properties
that hold for any allow-list are proved for any allow-list. Properties of
the source's table are proved about `KeepPatterns`.

## Model

| member | source | states |
|---|---|---|
| ModuleLine.IsModuleAssignment | scripts/audit-modules.py:189 | Declarative reading of `^(CONFIG_)(\w+)=m\s*$` with `re.match`: the line is `CONFIG_`, then a non-empty run of word characters that is the name, then `=m`, then whitespace only up to the end. It is the reference that `ParseModuleLine` and `RewriteLine` are proved against. |
| ModuleLine.WordRunEnd | scripts/audit-modules.py:189 | The `\w+` group runs from its start to the first character that is not a word character, or to the end of the line. |
| ModuleLine.ParseModuleLine | scripts/audit-modules.py:189-192 | The result is `Some(name)` exactly when the line is `CONFIG_` + name + `=m` + whitespace only. It is `None` exactly when no name fits the template. |
| ModuleLine.NameIsUnique | scripts/audit-modules.py:189-192 | No line fits the template with two different names, so `m.group(2)` is determined by the line. |
| ModuleLine.TemplateLineParses | scripts/audit-modules.py:189 | Any name followed by `=m` and any run of whitespace, including none, is accepted and yields that name. |
| ModuleLine.ParsedIsModuleLine | scripts/audit-modules.py:189-190 | Whenever the parser finds a name, the line matches the template. |
| KeepList.Matches | scripts/audit-modules.py:171 | One `pattern.search(option_name)`: an `Exact` entry matches only its own name, and a `Prefix` entry matches every name that begins with its stem. `MatchesMeaning` and `KeepRegex.PatternAgreesWithRegex` state this against the written pattern. |
| KeepList.KeepPatterns | scripts/audit-modules.py:21-162 | The table `KEEP_PATTERNS`, entry by entry and section by section in source order. `^NFS_V[234]` becomes three prefixes. `KeepSource.ShouldKeepIsRegexSearch` proves the table keeps the same names as the second transcription `KeepSource.KeepRegexes`, for a name without a line feed (every name the template captures, `Chars.NameHasNoNewline`). |
| KeepList.StartsWith | scripts/audit-modules.py:171 | The character walk answers true exactly when the stem is a prefix of the name. |
| KeepList.MatchesMeaning | scripts/audit-modules.py:170-171 | An `^X$` entry matches only the name `X`. An `^X` entry matches every name that begins with `X`. |
| KeepList.AnyMatches | scripts/audit-modules.py:168-173 | The loop returns true exactly when some entry of the list matches the name. |
| KeepList.ShouldKeep | scripts/audit-modules.py:21-173 | A name is kept exactly when some entry of `KEEP_PATTERNS` matches it. |
| KeepList.RejectedBySections | scripts/audit-modules.py:21-162 | A name that no section of the table matches is not kept. |
| KeepRegex.PatternAgreesWithRegex | scripts/audit-modules.py:165-171 | For a name with no line feed, an encoded entry matches exactly when `re.search` of its written pattern does. `$` also accepts a final line feed. |
| KeepRegex.NfsVersionsIsThreePrefixes | scripts/audit-modules.py:53 | `^NFS_V[234]` matches exactly the names that begin with `NFS_V2`, `NFS_V3` or `NFS_V4`. |
| KeepRegex.Compile | scripts/audit-modules.py:165 | Reading a pattern text gives a pattern anchored by `^`, and it is anchored at the end exactly when the text ends in `$`. Texts outside the shapes the table uses read as nothing. |
| KeepRegex.CompileWrite | scripts/audit-modules.py:165 | The text `^NAME$` reads as the exact pattern for `NAME`, and `^NAME` reads as the open one. |
| KeepRegex.CompileNfsVersions | scripts/audit-modules.py:53 | The text `^NFS_V[234]` reads as `NFS_V` followed by a class of `2`, `3` and `4`. |
| KeepSource.KeepRegexes | scripts/audit-modules.py:21-162 | The 111 entries of `KEEP_PATTERNS`, transcribed from their texts a second time, as regular expressions. Each section's `...Transcribed` lemma proves it equals the same section of the encoding read as regular expressions. |
| KeepSource.NfsClientTranscribed | scripts/audit-modules.py:52-60 | The NFS client section of the transcription is the encoded section with `^NFS_V[234]` in place of its three prefixes. |
| KeepSource.ShouldKeepIsRegexSearch | scripts/audit-modules.py:21-173 | For a name with no line feed, `should_keep` over the encoded table keeps it exactly when `re.search` of some transcribed pattern finds it. |
| KeepSource.ParsedNameIsSearchedAsRegex | scripts/audit-modules.py:165-193 | Every option name the template extracts is kept exactly when `re.search` of some transcribed pattern finds it. |
| KeepFamilies.OpenPatternKeepsExtensions | scripts/audit-modules.py:168-173 | If an open `^X` entry keeps a name, every extension of that name is kept too. |
| KeepFamilies.EveryEntryKeepsItsStem | scripts/audit-modules.py:21-173 | Every entry of the table keeps its own name or stem. |
| KeepFamilies.ExactPatternNeedsEquality | scripts/audit-modules.py:29 | `^BRIDGE$` keeps `BRIDGE`. `BRIDGE_FOO` is not kept. |
| KeepFamilies.OpenPatternsKeepFamilies | scripts/audit-modules.py:36-42 | The open entries `^VLAN_8021Q` and `^NF_` keep `VLAN_8021Q_GVRP` and `NF_TABLES`. |
| KeepFamilies.NfsVersionClass | scripts/audit-modules.py:53 | `^NFS_V[234]` keeps `NFS_V4_1`. `NFS_V5` is not kept. |
| KeepFamilies.UnlistedOptionIsNotKept | scripts/audit-modules.py:21-173 | An option that no entry mentions, `FOO_RANDOM`, is not kept. |
| Rewrite.RewriteLine | scripts/audit-modules.py:189-200 | A template line with name `n` becomes `CONFIG_n=y\n` (Kept) when the allow-list matches `n`, and `# CONFIG_n is not set\n` (Disabled) otherwise. Any other line is returned unchanged. The outcome is Unchanged exactly for lines outside the template. |
| Rewrite.RewritesTemplateLine | scripts/audit-modules.py:189-198 | `CONFIG_` + name + `=m` + whitespace is rewritten according to the allow-list's verdict on that name. |
| Rewrite.BuiltInFormIsNotModuleLine | scripts/audit-modules.py:194 | The built-in form `CONFIG_n=y\n` never fits the template again. |
| Rewrite.NotSetFormIsNotModuleLine | scripts/audit-modules.py:197 | The comment `# CONFIG_n is not set\n` never fits the template. |
| Rewrite.RewriteIsIdempotent | scripts/audit-modules.py:187-200 | Rewriting an already rewritten line leaves it unchanged and reports it as Unchanged. |
| ConfigAudit.Audit | scripts/audit-modules.py:179-206 | Reference reading of `audit_config` without I/O: each line is rewritten on its own, and the names of the template lines are split by the allow-list into kept and disabled, in input order. `AuditConfig` is proved equal to it, and the `ConfigAudit` lemmas state its properties. |
| ConfigAudit.ModuleNames | scripts/audit-modules.py:187-192 | The names collected are exactly those of the template lines, and there are no more of them than there are lines. |
| ConfigAudit.Select | scripts/audit-modules.py:193-198 | The kept (or disabled) list holds exactly the names whose allow-list verdict is keep (or disable). |
| ConfigAudit.AuditStep | scripts/audit-modules.py:187-200 | Appending one line to the input appends its rewrite to the output. Its name, if it has one, goes to kept or disabled, following the line's outcome. |
| ConfigAudit.AuditLineByLine | scripts/audit-modules.py:187-200 | The output has one line per input line. Each template line is rewritten by its name's verdict, and each other line is copied. |
| ConfigAudit.AuditConfig | scripts/audit-modules.py:179-206 | The loop of `audit_config` keeps the line count. It passes non-template lines through, rewrites template lines by the allow-list, and returns the kept and disabled names of the template lines in input order. |
| ConfigAudit.TemplateNamesByLine | scripts/audit-modules.py:187-192 | The `i`-th template name is the name on the `i`-th template line. |
| ConfigAudit.TemplatePositionsAscend | scripts/audit-modules.py:187-190 | The template line indices ascend and are exactly the lines that fit the template, so every template line contributes exactly one name. |
| ConfigAudit.SelectKeepsOrder | scripts/audit-modules.py:193-198 | The `i`-th kept (or disabled) name is the name at the `i`-th chosen position. |
| ConfigAudit.SelectedPositionsAscend | scripts/audit-modules.py:193-198 | The chosen positions ascend. They are exactly the positions whose verdict matches the list. |
| ConfigAudit.NamesFollowInputOrder | scripts/audit-modules.py:187-198 | The `i`-th kept (or disabled) name is the name on the `i`-th listed input line, and the listed lines ascend. |
| ConfigAudit.ListedLinesAreExact | scripts/audit-modules.py:187-198 | The kept list is drawn from exactly the template lines whose name is allowed. The disabled list is drawn from exactly those whose name is not. |
| ConfigAudit.SelectPartition | scripts/audit-modules.py:193-198 | As multisets, the kept and disabled lists add up to the template names. |
| ConfigAudit.AuditPartition | scripts/audit-modules.py:179-206 | Kept and disabled together are the template names, each exactly once. Kept names are allowed, disabled names are not, and no name is in both lists. |
| ConfigAudit.ModuleNamesCount | scripts/audit-modules.py:187-198 | There are as many collected names as template lines, so `len(kept) + len(disabled)` counts the `=m` lines. |
| ConfigAudit.AuditIsIdempotent | scripts/audit-modules.py:187-206 | Auditing an audited configuration returns it unchanged, with no kept and no disabled names. |
| ConfigAudit.AuditAppend | scripts/audit-modules.py:187-206 | The audit is line-local: auditing two parts of a file separately and joining the results is the same as auditing the whole file. |
| Scenarios.BridgeModuleIsBuiltIn | scripts/audit-modules.py:189-195 | `CONFIG_BRIDGE=m\n` becomes `CONFIG_BRIDGE=y\n` under any allow-list that keeps `BRIDGE`. |
| Scenarios.NfTablesModuleIsBuiltIn | scripts/audit-modules.py:189-195 | `CONFIG_NF_TABLES=m\n` becomes `CONFIG_NF_TABLES=y\n` under any allow-list that keeps `NF_TABLES`. |
| Scenarios.UnlistedModuleIsDisabled | scripts/audit-modules.py:189-198 | `CONFIG_FOO_RANDOM=m\n` becomes `# CONFIG_FOO_RANDOM is not set\n` under any allow-list that does not keep it. |
| Scenarios.TrailingWhitespaceIsAccepted | scripts/audit-modules.py:189 | `CONFIG_BRIDGE=m` followed by a space, a tab, a form feed, U+001F and a line feed still fits the template, and its rewrite ends in a single line feed. |
| Scenarios.MissingLineFeedIsAccepted | scripts/audit-modules.py:189 | A last line `CONFIG_BRIDGE=m` with no line feed still fits the template, and its rewrite gains one. |
| Scenarios.KernelListBuildsInBridge | scripts/audit-modules.py:29 | With `KEEP_PATTERNS` itself, `CONFIG_BRIDGE=m` becomes built-in. |
| Scenarios.KernelListBuildsInNfTables | scripts/audit-modules.py:42 | With `KEEP_PATTERNS` itself, `CONFIG_NF_TABLES=m` becomes built-in. |
| Scenarios.KernelListDisablesUnlisted | scripts/audit-modules.py:193-198 | With `KEEP_PATTERNS` itself, `CONFIG_FOO_RANDOM=m` is commented out. |
| Scenarios.SettledLinesPassThrough | scripts/audit-modules.py:199-200 | Lines already in `=y` form or in "is not set" form are copied unchanged. |
| Scenarios.BlankLinePassesThrough | scripts/audit-modules.py:199-200 | A blank line is copied unchanged. |
| Scenarios.EmptyNamePassesThrough | scripts/audit-modules.py:189 | `CONFIG_=m` has no name, because `\w+` needs at least one character, so it is copied unchanged. |
| Scenarios.TrailingCommentPassesThrough | scripts/audit-modules.py:189 | `CONFIG_X=m # c` has more than whitespace after `=m`, so it is copied unchanged. |
| Scenarios.EmptyConfigIsUnchanged | scripts/audit-modules.py:179-206 | An empty configuration yields no lines, no kept names and no disabled names. |

## Left out

- File I/O: reading the file (lines 184-185) and writing the result back (lines 203-204). The input is the list of lines `readlines` would return, each keeping its line feed except possibly the last. The file is opened in text mode with universal newlines, so `readlines` has already turned `\r\n` and a lone `\r` into `\n` and split lines there. A line passed through is therefore identical to the line `readlines` returned, not to the bytes of the file. The output is the list that `writelines` would write.
- Output path: the docstring at line 7 says the result goes to `<config-file>.audited`, but line 177 overwrites the input file in place. This only affects where the file is written, which is part of the I/O left out.
- `main` (lines 209-228): argument checking, printing and sorting for display. It only reports the results.
- The `unchanged` list (lines 181 and 201): it is filled but never returned or read.
- Character classes: `\w` is modelled as ASCII letters, digits and `_`. Python's `str` patterns also accept Unicode letters and digits in `\w`, so a line such as `CONFIG_É=m` is rewritten by the script and copied by the model. Kernel option names are ASCII. `\s` is modelled in full.
- KeepSource.KeepRegexes: each entry is transcribed by hand from its pattern text. `KeepRegex.CompileWrite` and `KeepRegex.CompileNfsVersions` prove what texts of each shape read as, but the 111 texts are not themselves compared entry by entry with the transcription. Comparing that many literal strings is beyond what the solver can do within its resource limit.
- Compiling the patterns (line 165) is modelled by the reader `KeepRegex.Compile`. It accepts `^`, literal characters, classes of literal characters and a final `$`, which is all the table uses. Repetition, alternation, groups, escapes, ranges and the other `re` syntax read as nothing.

=== FILE: audit.dfy ===
/** The driver `audit_config` (scripts/audit-modules.py:176-206) without its
    file I/O: the input is the already-split list of lines, the result is the
    rewritten lines together with the kept and disabled option names. */
module ConfigAudit {
  import opened Options
  import opened ModuleLine
  import opened KeepList
  import opened Rewrite

  datatype AuditResult = AuditResult(lines: seq<string>, kept: seq<string>, disabled: seq<string>)

  /** The option names of the template lines of `input`, in input order. */
  function ModuleNames(input: seq<string>): (names: seq<string>)
    ensures |names| <= |input|
    ensures forall n :: n in names <==>
              exists i :: 0 <= i < |input| && IsModuleAssignment(input[i], n)
    decreases |input|
  {
    if input == [] then []
    else
      var init := ModuleNames(input[..|input| - 1]);
      assert forall i :: 0 <= i < |input| - 1 ==> input[..|input| - 1][i] == input[i];
      match ParseModuleLine(input[|input| - 1])
      case Some(n) => init + [n]
      case None => init
  }

  /** The names whose allow-list verdict is `keep`, order preserved. */
  function Select(allow: seq<Pattern>, names: seq<string>, keep: bool): (r: seq<string>)
    ensures |r| <= |names|
    ensures forall n :: n in r <==> n in names && AnyMatches(allow, n) == keep
    decreases |names|
  {
    if names == [] then []
    else
      var init := Select(allow, names[..|names| - 1], keep);
      var n := names[|names| - 1];
      assert names == names[..|names| - 1] + [n];
      if AnyMatches(allow, n) == keep then init + [n] else init
  }

  /** Reference reading of the whole transform: every line rewritten on its
      own, and the template names split by the allow-list. */
  function Audit(allow: seq<Pattern>, input: seq<string>): AuditResult {
    var names := ModuleNames(input);
    AuditResult(
      seq(|input|, i requires 0 <= i < |input| => RewriteLine(allow, input[i]).text),
      Select(allow, names, true),
      Select(allow, names, false))
  }

  lemma ModuleNamesSnoc(xs: seq<string>, x: string)
    ensures ModuleNames(xs + [x]) ==
              match ParseModuleLine(x)
              case Some(n) => ModuleNames(xs) + [n]
              case None => ModuleNames(xs)
  {
    var ys := xs + [x];
    assert ys[..|ys| - 1] == xs;
  }

  lemma SelectSnoc(allow: seq<Pattern>, names: seq<string>, n: string, keep: bool)
    ensures Select(allow, names + [n], keep) ==
              if AnyMatches(allow, n) == keep then Select(allow, names, keep) + [n]
              else Select(allow, names, keep)
  {
    var ms := names + [n];
    assert ms[..|ms| - 1] == names;
  }

  /** Adding one line at the end extends each part of the result by that
      line's contribution alone. */
  lemma AuditStep(allow: seq<Pattern>, xs: seq<string>, x: string)
    ensures var before, after, step := Audit(allow, xs), Audit(allow, xs + [x]), RewriteLine(allow, x);
            && after.lines == before.lines + [step.text]
            && after.kept == before.kept + (if step.outcome.Kept? then [step.outcome.name] else [])
            && after.disabled == before.disabled + (if step.outcome.Disabled? then [step.outcome.name] else [])
  {
    var step := RewriteLine(allow, x);
    AuditStepLines(allow, xs, x);
    match ParseModuleLine(x) {
      case Some(n) =>
        assert step.outcome == if AnyMatches(allow, n) then Kept(n) else Disabled(n);
        AuditStepNames(allow, xs, x, n);
      case None =>
        assert step.outcome == Unchanged;
        ModuleNamesSnoc(xs, x);
    }
  }

  /** The output lines grow by the one rewritten line. */
  lemma AuditStepLines(allow: seq<Pattern>, xs: seq<string>, x: string)
    ensures Audit(allow, xs + [x]).lines == Audit(allow, xs).lines + [RewriteLine(allow, x).text]
  {
    var ys := xs + [x];
    assert forall i :: 0 <= i < |xs| ==> ys[i] == xs[i];
  }

  /** A template line's name joins the list the allow-list puts it in. */
  lemma AuditStepNames(allow: seq<Pattern>, xs: seq<string>, x: string, n: string)
    requires ParseModuleLine(x) == Some(n)
    ensures var before, after := Audit(allow, xs), Audit(allow, xs + [x]);
            && after.kept == before.kept + (if AnyMatches(allow, n) then [n] else [])
            && after.disabled == before.disabled + (if AnyMatches(allow, n) then [] else [n])
  {
    SelectedNamesSnoc(allow, xs, x, n, true);
    SelectedNamesSnoc(allow, xs, x, n, false);
  }

  lemma SelectedNamesSnoc(allow: seq<Pattern>, xs: seq<string>, x: string, n: string, keep: bool)
    requires ParseModuleLine(x) == Some(n)
    ensures Select(allow, ModuleNames(xs + [x]), keep) ==
              Select(allow, ModuleNames(xs), keep) + (if AnyMatches(allow, n) == keep then [n] else [])
  {
    ModuleNamesSnoc(xs, x);
    SelectSnoc(allow, ModuleNames(xs), n, keep);
  }

  /** Each output line of the reference is its input line rewritten on its own:
      template lines become the built-in or the "not set" form, all others
      are passed through unchanged. */
  lemma AuditLineByLine(allow: seq<Pattern>, input: seq<string>)
    ensures var out := Audit(allow, input).lines;
            && |out| == |input|
            && (forall i :: 0 <= i < |input| && !IsModuleLine(input[i]) ==> out[i] == input[i])
            && (forall i, name {:trigger IsModuleAssignment(input[i], name)} ::
                  0 <= i < |input| && IsModuleAssignment(input[i], name) ==>
                    out[i] == if AnyMatches(allow, name) then BuiltInForm(name) else NotSetForm(name))
  {
  }

  /** The loop of `audit_config` (lines 187-201): one output line per input
      line, names appended to `kept` or `disabled` as they are met. */
  method AuditConfig(allow: seq<Pattern>, original: seq<string>)
    returns (lines: seq<string>, kept: seq<string>, disabled: seq<string>)
    ensures |lines| == |original|
    ensures forall i :: 0 <= i < |original| && !IsModuleLine(original[i]) ==> lines[i] == original[i]
    ensures forall i, name {:trigger IsModuleAssignment(original[i], name)} ::
              0 <= i < |original| && IsModuleAssignment(original[i], name) ==>
                lines[i] == if AnyMatches(allow, name) then BuiltInForm(name) else NotSetForm(name)
    ensures kept == Select(allow, ModuleNames(original), true)
    ensures disabled == Select(allow, ModuleNames(original), false)
  {
    lines, kept, disabled := [], [], [];
    var i := 0;
    while i < |original|
      invariant 0 <= i <= |original|
      invariant lines == Audit(allow, original[..i]).lines
      invariant kept == Audit(allow, original[..i]).kept
      invariant disabled == Audit(allow, original[..i]).disabled
    {
      var line := original[i];
      AuditStep(allow, original[..i], line);
      match ParseModuleLine(line) {
        case Some(option) =>
          if AnyMatches(allow, option) {
            lines := lines + [ConfigPrefix + option + "=y\n"];
            kept := kept + [option];
          } else {
            lines := lines + ["# " + ConfigPrefix + option + " is not set\n"];
            disabled := disabled + [option];
          }
        case None =>
          lines := lines + [line];
      }
      TakeOneMore(original, i);
      i := i + 1;
    }
    assert original[..i] == original;
    AuditLineByLine(allow, original);
    assert lines == Audit(allow, original).lines;
  }

  /** The ascending indices of the template lines. */
  function TemplatePositions(input: seq<string>): seq<nat>
    decreases |input|
  {
    if input == [] then []
    else
      var xs := input[..|input| - 1];
      var init := TemplatePositions(xs);
      if ParseModuleLine(input[|input| - 1]).Some? then init + [|xs|] else init
  }

  /** The `i`-th template name is the name on line `TemplatePositions(input)[i]`. */
  lemma {:induction false} TemplateNamesByLine(input: seq<string>)
    ensures var f := TemplatePositions(input);
            && |f| == |ModuleNames(input)|
            && (forall i :: 0 <= i < |f| ==>
                  f[i] < |input| && IsModuleAssignment(input[f[i]], ModuleNames(input)[i]))
    decreases |input|
  {
    if input != [] {
      var xs, x := input[..|input| - 1], input[|input| - 1];
      assert input == xs + [x];
      assert forall k :: 0 <= k < |xs| ==> input[k] == xs[k];
      TemplateNamesByLine(xs);
      ModuleNamesSnoc(xs, x);
      if ParseModuleLine(x).Some? {
        assert IsModuleAssignment(x, ParseModuleLine(x).value);
      }
    }
  }

  /** The template positions ascend and are exactly the template lines. */
  lemma {:induction false} TemplatePositionsAscend(input: seq<string>)
    ensures var f := TemplatePositions(input);
            && (forall i :: 0 <= i < |f| ==> f[i] < |input|)
            && (forall i, j :: 0 <= i < j < |f| ==> f[i] < f[j])
            && (forall k :: 0 <= k < |input| ==> (k in f <==> IsModuleLine(input[k])))
    decreases |input|
  {
    if input != [] {
      var xs, x := input[..|input| - 1], input[|input| - 1];
      assert forall k :: 0 <= k < |xs| ==> input[k] == xs[k];
      TemplatePositionsAscend(xs);
      if ParseModuleLine(x).Some? {
        ParsedIsModuleLine(x);
      }
    }
  }

  /** The ascending indices of the names whose allow-list verdict is `keep`. */
  function SelectedPositions(allow: seq<Pattern>, names: seq<string>, keep: bool): seq<nat>
    decreases |names|
  {
    if names == [] then []
    else
      var init := names[..|names| - 1];
      var f := SelectedPositions(allow, init, keep);
      if AnyMatches(allow, names[|names| - 1]) == keep then f + [|init|] else f
  }

  /** Select keeps the input order: its `i`-th name is the name at the `i`-th
      position whose verdict is `keep`. */
  lemma {:induction false} SelectKeepsOrder(allow: seq<Pattern>, names: seq<string>, keep: bool)
    ensures var f, r := SelectedPositions(allow, names, keep), Select(allow, names, keep);
            && |f| == |r|
            && (forall i :: 0 <= i < |f| ==> f[i] < |names| && names[f[i]] == r[i])
    decreases |names|
  {
    if names != [] {
      var init, n := names[..|names| - 1], names[|names| - 1];
      assert names == init + [n];
      SelectKeepsOrder(allow, init, keep);
      SelectSnoc(allow, init, n, keep);
    }
  }

  /** The positions Select draws from ascend, and are exactly those whose
      verdict is `keep`. */
  lemma {:induction false} SelectedPositionsAscend(allow: seq<Pattern>, names: seq<string>, keep: bool)
    ensures var f := SelectedPositions(allow, names, keep);
            && (forall i :: 0 <= i < |f| ==> f[i] < |names|)
            && (forall i, j :: 0 <= i < j < |f| ==> f[i] < f[j])
            && (forall k :: 0 <= k < |names| ==> (k in f <==> AnyMatches(allow, names[k]) == keep))
    decreases |names|
  {
    if names != [] {
      var init, n := names[..|names| - 1], names[|names| - 1];
      assert forall k :: 0 <= k < |init| ==> names[k] == init[k];
      SelectedPositionsAscend(allow, init, keep);
    }
  }

  /** The input lines the `keep` list (kept, or disabled) draws its names from. */
  function ListedLines(allow: seq<Pattern>, input: seq<string>, keep: bool): seq<nat> {
    var t, s := TemplatePositions(input), SelectedPositions(allow, ModuleNames(input), keep);
    TemplateNamesByLine(input);
    SelectedPositionsAscend(allow, ModuleNames(input), keep);
    seq(|s|, i requires 0 <= i < |s| => t[s[i]])
  }

  /** `kept` (for `keep`) and `disabled` (otherwise) list their names in
      input order: the `i`-th name is the name on the `i`-th listed line. */
  lemma NamesFollowInputOrder(allow: seq<Pattern>, input: seq<string>, keep: bool)
    ensures var r, g := Select(allow, ModuleNames(input), keep), ListedLines(allow, input, keep);
            && |g| == |r|
            && (forall i :: 0 <= i < |g| ==> g[i] < |input| && IsModuleAssignment(input[g[i]], r[i]))
            && (forall i, j :: 0 <= i < j < |g| ==> g[i] < g[j])
  {
    var names := ModuleNames(input);
    TemplateNamesByLine(input);
    TemplatePositionsAscend(input);
    SelectKeepsOrder(allow, names, keep);
    SelectedPositionsAscend(allow, names, keep);
  }

  /** The listed lines are exactly the template lines whose name gets the
      verdict `keep`. */
  lemma ListedLinesAreExact(allow: seq<Pattern>, input: seq<string>, keep: bool)
    ensures var g := ListedLines(allow, input, keep);
            forall k, name {:trigger IsModuleAssignment(input[k], name)} ::
              0 <= k < |input| && IsModuleAssignment(input[k], name) ==>
                (k in g <==> AnyMatches(allow, name) == keep)
  {
    forall k, name | 0 <= k < |input| && IsModuleAssignment(input[k], name)
      ensures k in ListedLines(allow, input, keep) <==> AnyMatches(allow, name) == keep
    {
      if AnyMatches(allow, name) == keep {
        VerdictLineIsListed(allow, input, keep, k, name);
      }
      if k in ListedLines(allow, input, keep) {
        ListedLineHasVerdict(allow, input, keep, k, name);
      }
    }
  }

  lemma VerdictLineIsListed(allow: seq<Pattern>, input: seq<string>, keep: bool, k: nat, name: string)
    requires k < |input| && IsModuleAssignment(input[k], name) && AnyMatches(allow, name) == keep
    ensures k in ListedLines(allow, input, keep)
  {
    var names := ModuleNames(input);
    var t, s := TemplatePositions(input), SelectedPositions(allow, names, keep);
    TemplateNamesByLine(input);
    TemplatePositionsAscend(input);
    SelectedPositionsAscend(allow, names, keep);
    var m :| 0 <= m < |t| && t[m] == k;
    NameIsUnique(input[k], name, names[m]);
    var i :| 0 <= i < |s| && s[i] == m;
    assert ListedLines(allow, input, keep)[i] == k;
  }

  lemma ListedLineHasVerdict(allow: seq<Pattern>, input: seq<string>, keep: bool, k: nat, name: string)
    requires k < |input| && IsModuleAssignment(input[k], name) && k in ListedLines(allow, input, keep)
    ensures AnyMatches(allow, name) == keep
  {
    var names := ModuleNames(input);
    var t, s := TemplatePositions(input), SelectedPositions(allow, names, keep);
    var g := ListedLines(allow, input, keep);
    TemplateNamesByLine(input);
    SelectedPositionsAscend(allow, names, keep);
    var i :| 0 <= i < |g| && g[i] == k;
    NameIsUnique(input[k], name, names[s[i]]);
  }

  lemma TakeOneMore(s: seq<string>, i: nat)
    requires i < |s|
    ensures s[..i + 1] == s[..i] + [s[i]]
  {
  }

  /** Kept and disabled together are exactly the template names, each once. */
  lemma {:induction false} SelectPartition(allow: seq<Pattern>, names: seq<string>)
    ensures multiset(Select(allow, names, true)) + multiset(Select(allow, names, false))
            == multiset(names)
    decreases |names|
  {
    if names != [] {
      var init, n := names[..|names| - 1], names[|names| - 1];
      assert names == init + [n];
      SelectPartition(allow, init);
      SelectSnoc(allow, init, n, true);
      SelectSnoc(allow, init, n, false);
    }
  }

  /** Every template name lands in exactly one of the two lists, according to
      the allow-list alone; so the lists never share a name, and together they
      count the template lines. */
  lemma AuditPartition(allow: seq<Pattern>, input: seq<string>)
    ensures var r := Audit(allow, input);
            && multiset(r.kept) + multiset(r.disabled) == multiset(ModuleNames(input))
            && |r.kept| + |r.disabled| == |ModuleNames(input)|
            && (forall n :: n in r.kept ==> AnyMatches(allow, n))
            && (forall n :: n in r.disabled ==> !AnyMatches(allow, n))
            && (forall n :: !(n in r.kept && n in r.disabled))
  {
    var r := Audit(allow, input);
    SelectPartition(allow, ModuleNames(input));
    assert |multiset(r.kept) + multiset(r.disabled)| == |multiset(ModuleNames(input))|;
  }

  /** Positions of the lines that match the template. */
  ghost function TemplateLines(input: seq<string>): set<int> {
    set i | 0 <= i < |input| && IsModuleLine(input[i])
  }

  /** There is one template name per template line. */
  lemma {:induction false} ModuleNamesCount(input: seq<string>)
    ensures |ModuleNames(input)| == |TemplateLines(input)|
    decreases |input|
  {
    if input != [] {
      var xs, x := input[..|input| - 1], input[|input| - 1];
      assert input == xs + [x];
      ModuleNamesCount(xs);
      ModuleNamesSnoc(xs, x);
      TemplateLinesSnoc(xs, x);
      if ParseModuleLine(x).Some? {
        ParsedIsModuleLine(x);
      }
    }
  }

  lemma TemplateLinesSnoc(xs: seq<string>, x: string)
    ensures TemplateLines(xs + [x]) == TemplateLines(xs) + (if IsModuleLine(x) then {|xs|} else {})
  {
    var ys := xs + [x];
    assert forall i :: 0 <= i < |xs| ==> ys[i] == xs[i];
  }

  /** A list with no template line has no template names. */
  lemma {:induction false} NoTemplateLinesNoNames(input: seq<string>)
    requires forall i :: 0 <= i < |input| ==> !IsModuleLine(input[i])
    ensures ModuleNames(input) == []
    decreases |input|
  {
    if input != [] {
      var xs, x := input[..|input| - 1], input[|input| - 1];
      assert input == xs + [x];
      assert forall i :: 0 <= i < |xs| ==> xs[i] == input[i];
      NoTemplateLinesNoNames(xs);
      ModuleNamesSnoc(xs, x);
      if ParseModuleLine(x).Some? {
        ParsedIsModuleLine(x);
        assert false;
      }
    }
  }

  /** Running the transform on its own output changes nothing and reports no
      names: no rewritten line fits the template again. */
  lemma AuditIsIdempotent(allow: seq<Pattern>, input: seq<string>)
    ensures var once := Audit(allow, input).lines;
            Audit(allow, once) == AuditResult(once, [], [])
  {
    var once := Audit(allow, input).lines;
    forall i | 0 <= i < |once|
      ensures RewriteLine(allow, once[i]) == LineResult(once[i], Unchanged)
    {
      RewriteIsIdempotent(allow, input[i]);
    }
    NoTemplateLinesNoNames(once);
  }

  lemma {:induction false} ModuleNamesAppend(a: seq<string>, b: seq<string>)
    ensures ModuleNames(a + b) == ModuleNames(a) + ModuleNames(b)
    decreases |b|
  {
    if b != [] {
      var init, x := b[..|b| - 1], b[|b| - 1];
      assert b == init + [x];
      assert a + b == (a + init) + [x];
      ModuleNamesAppend(a, init);
      ModuleNamesSnoc(a + init, x);
      ModuleNamesSnoc(init, x);
    } else {
      assert a + b == a;
    }
  }

  lemma {:induction false} SelectAppend(allow: seq<Pattern>, a: seq<string>, b: seq<string>, keep: bool)
    ensures Select(allow, a + b, keep) == Select(allow, a, keep) + Select(allow, b, keep)
    decreases |b|
  {
    if b != [] {
      var init, n := b[..|b| - 1], b[|b| - 1];
      assert b == init + [n];
      assert a + b == (a + init) + [n];
      SelectAppend(allow, a, init, keep);
      SelectSnoc(allow, a + init, n, keep);
      SelectSnoc(allow, init, n, keep);
    } else {
      assert a + b == a;
    }
  }

  lemma AuditLinesAppend(allow: seq<Pattern>, a: seq<string>, b: seq<string>)
    ensures Audit(allow, a + b).lines == Audit(allow, a).lines + Audit(allow, b).lines
  {
    var la, lb, whole := Audit(allow, a).lines, Audit(allow, b).lines, Audit(allow, a + b).lines;
    forall i | 0 <= i < |a + b|
      ensures whole[i] == (la + lb)[i]
    {
      if i < |a| {
        assert (a + b)[i] == a[i];
      } else {
        assert (a + b)[i] == b[i - |a|];
      }
    }
  }

  /** The transform is line-local: auditing two halves separately and joining
      the results is auditing the whole. */
  lemma AuditAppend(allow: seq<Pattern>, a: seq<string>, b: seq<string>)
    ensures var ra, rb := Audit(allow, a), Audit(allow, b);
            Audit(allow, a + b) ==
              AuditResult(ra.lines + rb.lines, ra.kept + rb.kept, ra.disabled + rb.disabled)
  {
    ModuleNamesAppend(a, b);
    SelectAppend(allow, ModuleNames(a), ModuleNames(b), true);
    SelectAppend(allow, ModuleNames(a), ModuleNames(b), false);
    AuditLinesAppend(allow, a, b);
  }
}

=== FILE: chars.dfy ===
/** Character classes of the regular expressions in scripts/audit-modules.py.

    Python's `\w` and `\s` on `str` patterns are Unicode-aware. `\s` is
    given in full; `\w` is restricted to its ASCII members, which is what
    kernel option names contain. */
module Chars {

  /** `\w`: ASCII letters, digits and the underscore. */
  predicate IsWordChar(c: char) {
    || ('A' <= c <= 'Z')
    || ('a' <= c <= 'z')
    || ('0' <= c <= '9')
    || c == '_'
  }

  /** `\s` on a `str` pattern, the characters Python's `str.isspace` accepts:
      tab through carriage return, the separators U+001C to U+001F, space,
      and the Unicode spaces and line and paragraph separators. */
  predicate IsSpaceChar(c: char) {
    || ('\t' <= c <= '\r')
    || ('\U{001C}' <= c <= '\U{001F}')
    || c == ' '
    || c == '\U{0085}'
    || c == '\U{00A0}'
    || c == '\U{1680}'
    || ('\U{2000}' <= c <= '\U{200A}')
    || c == '\U{2028}'
    || c == '\U{2029}'
    || c == '\U{202F}'
    || c == '\U{205F}'
    || c == '\U{3000}'
  }

  /** A bare option name as captured by `(\w+)`: one or more word characters. */
  predicate IsName(s: string) {
    |s| > 0 && forall i :: 0 <= i < |s| ==> IsWordChar(s[i])
  }

  /** What `\s*` followed by `$` accepts: only whitespace up to the end. */
  predicate AllSpace(s: string) {
    forall i :: 0 <= i < |s| ==> IsSpaceChar(s[i])
  }

  lemma NameHasNoNewline(s: string)
    requires IsName(s)
    ensures '\n' !in s
  {
  }
}

=== FILE: keep_families.dfy ===
/** The family semantics of the allow-list (scripts/audit-modules.py:21-173):
    `^X$` entries keep exactly `X`, open `^X` entries keep every extension of
    `X`, and `^NFS_V[234]` keeps the version 2, 3 and 4 families only. */
module KeepFamilies {
  import opened KeepList

  /** Every extension of a name an open pattern keeps is kept as well. */
  lemma OpenPatternKeepsExtensions(p: Pattern, name: string, ext: string)
    requires p in KeepPatterns && p.Prefix? && Matches(p, name)
    ensures ShouldKeep(name + ext)
  {
    assert name <= name + ext;
  }

  /** Every entry of the table keeps its own stem. */
  lemma EveryEntryKeepsItsStem(p: Pattern)
    requires p in KeepPatterns
    ensures ShouldKeep(if p.Exact? then p.name else p.stem)
  {
  }

  /** `^BRIDGE$` (line 29) keeps `BRIDGE` but not `BRIDGE_FOO`. */
  lemma ExactPatternNeedsEquality()
    ensures ShouldKeep("BRIDGE")
    ensures !ShouldKeep("BRIDGE_FOO")
  {
    assert Exact("BRIDGE") in Networking;
    assert Exact("BRIDGE") in KeepPatterns;
    BridgeFooHead();
    BridgeFooNfs();
    BridgeFooMiddle();
    BridgeFooCrypto();
    BridgeFooTail();
    RejectedBySections("BRIDGE_FOO");
  }

  /** The open `^NF_` (line 42) and `^VLAN_8021Q` (line 36) keep their families. */
  lemma OpenPatternsKeepFamilies()
    ensures ShouldKeep("NF_TABLES")
    ensures ShouldKeep("VLAN_8021Q_GVRP")
  {
    assert Prefix("NF_") in Netfilter;
    assert Prefix("NF_") in KeepPatterns;
    assert Prefix("VLAN_8021Q") in Networking;
    assert Prefix("VLAN_8021Q") in KeepPatterns;
  }

  /** `^NFS_V[234]` (line 53) keeps `NFS_V4_1` but not `NFS_V5`. */
  lemma NfsVersionClass()
    ensures ShouldKeep("NFS_V4_1")
    ensures !ShouldKeep("NFS_V5")
  {
    assert Prefix("NFS_V4") in NfsClient;
    assert Prefix("NFS_V4") in KeepPatterns;
    NfsV5Head();
    NfsV5Nfs();
    NfsV5Middle();
    NfsV5Crypto();
    NfsV5Tail();
    RejectedBySections("NFS_V5");
  }

  /** An option no entry mentions, such as `FOO_RANDOM`, is not kept. */
  lemma UnlistedOptionIsNotKept()
    ensures !ShouldKeep("FOO_RANDOM")
  {
    FooRandomHead();
    FooRandomNfs();
    FooRandomMiddle();
    FooRandomCrypto();
    FooRandomTail();
    RejectedBySections("FOO_RANDOM");
  }

  // Each rejected name is checked against the table a few sections at a
  // time, index by index: one small proof per group of sections. Comparing
  // a literal name with the literal entries is costly for the solver, and
  // one proof over the whole table, or the checks written inline where they
  // are used, runs out of resource.
  lemma BridgeFooHead()
    ensures forall i :: 0 <= i < |Gpu| ==> !Matches(Gpu[i], "BRIDGE_FOO")
    ensures forall i :: 0 <= i < |Networking| ==> !Matches(Networking[i], "BRIDGE_FOO")
    ensures forall i :: 0 <= i < |Netfilter| ==> !Matches(Netfilter[i], "BRIDGE_FOO")
  {}
  lemma BridgeFooNfs()
    ensures forall i :: 0 <= i < |NfsClient| ==> !Matches(NfsClient[i], "BRIDGE_FOO")
  {}
  lemma BridgeFooMiddle()
    ensures forall i :: 0 <= i < |Filesystems| ==> !Matches(Filesystems[i], "BRIDGE_FOO")
    ensures forall i :: 0 <= i < |Wireless| ==> !Matches(Wireless[i], "BRIDGE_FOO")
    ensures forall i :: 0 <= i < |UsbPeripherals| ==> !Matches(UsbPeripherals[i], "BRIDGE_FOO")
    ensures forall i :: 0 <= i < |FireWire| ==> !Matches(FireWire[i], "BRIDGE_FOO")
    ensures forall i :: 0 <= i < |IntelPlatform| ==> !Matches(IntelPlatform[i], "BRIDGE_FOO")
  {}
  lemma BridgeFooCrypto()
    ensures forall i :: 0 <= i < |Crypto| ==> !Matches(Crypto[i], "BRIDGE_FOO")
  {}
  lemma BridgeFooTail()
    ensures forall i :: 0 <= i < |BlockLayer| ==> !Matches(BlockLayer[i], "BRIDGE_FOO")
    ensures forall i :: 0 <= i < |Nvme| ==> !Matches(Nvme[i], "BRIDGE_FOO")
    ensures forall i :: 0 <= i < |GeneralInfrastructure| ==> !Matches(GeneralInfrastructure[i], "BRIDGE_FOO")
    ensures forall i :: 0 <= i < |Acpi| ==> !Matches(Acpi[i], "BRIDGE_FOO")
    ensures forall i :: 0 <= i < |Virtio| ==> !Matches(Virtio[i], "BRIDGE_FOO")
  {}
  lemma NfsV5Head()
    ensures forall i :: 0 <= i < |Gpu| ==> !Matches(Gpu[i], "NFS_V5")
    ensures forall i :: 0 <= i < |Networking| ==> !Matches(Networking[i], "NFS_V5")
    ensures forall i :: 0 <= i < |Netfilter| ==> !Matches(Netfilter[i], "NFS_V5")
  {}
  lemma NfsV5Nfs()
    ensures forall i :: 0 <= i < |NfsClient| ==> !Matches(NfsClient[i], "NFS_V5")
  {
    DiffersAt("NFS_V5", "NFS_V2", 5);
    DiffersAt("NFS_V5", "NFS_V3", 5);
    DiffersAt("NFS_V5", "NFS_V4", 5);
  }
  lemma NfsV5Middle()
    ensures forall i :: 0 <= i < |Filesystems| ==> !Matches(Filesystems[i], "NFS_V5")
    ensures forall i :: 0 <= i < |Wireless| ==> !Matches(Wireless[i], "NFS_V5")
    ensures forall i :: 0 <= i < |UsbPeripherals| ==> !Matches(UsbPeripherals[i], "NFS_V5")
    ensures forall i :: 0 <= i < |FireWire| ==> !Matches(FireWire[i], "NFS_V5")
    ensures forall i :: 0 <= i < |IntelPlatform| ==> !Matches(IntelPlatform[i], "NFS_V5")
  {}
  lemma NfsV5Crypto()
    ensures forall i :: 0 <= i < |Crypto| ==> !Matches(Crypto[i], "NFS_V5")
  {}
  lemma NfsV5Tail()
    ensures forall i :: 0 <= i < |BlockLayer| ==> !Matches(BlockLayer[i], "NFS_V5")
    ensures forall i :: 0 <= i < |Nvme| ==> !Matches(Nvme[i], "NFS_V5")
    ensures forall i :: 0 <= i < |GeneralInfrastructure| ==> !Matches(GeneralInfrastructure[i], "NFS_V5")
    ensures forall i :: 0 <= i < |Acpi| ==> !Matches(Acpi[i], "NFS_V5")
    ensures forall i :: 0 <= i < |Virtio| ==> !Matches(Virtio[i], "NFS_V5")
  {}
  lemma FooRandomHead()
    ensures forall i :: 0 <= i < |Gpu| ==> !Matches(Gpu[i], "FOO_RANDOM")
    ensures forall i :: 0 <= i < |Networking| ==> !Matches(Networking[i], "FOO_RANDOM")
    ensures forall i :: 0 <= i < |Netfilter| ==> !Matches(Netfilter[i], "FOO_RANDOM")
  {}
  lemma FooRandomNfs()
    ensures forall i :: 0 <= i < |NfsClient| ==> !Matches(NfsClient[i], "FOO_RANDOM")
  {}
  lemma FooRandomMiddle()
    ensures forall i :: 0 <= i < |Filesystems| ==> !Matches(Filesystems[i], "FOO_RANDOM")
    ensures forall i :: 0 <= i < |Wireless| ==> !Matches(Wireless[i], "FOO_RANDOM")
    ensures forall i :: 0 <= i < |UsbPeripherals| ==> !Matches(UsbPeripherals[i], "FOO_RANDOM")
    ensures forall i :: 0 <= i < |FireWire| ==> !Matches(FireWire[i], "FOO_RANDOM")
    ensures forall i :: 0 <= i < |IntelPlatform| ==> !Matches(IntelPlatform[i], "FOO_RANDOM")
  {}
  lemma FooRandomCrypto()
    ensures forall i :: 0 <= i < |Crypto| ==> !Matches(Crypto[i], "FOO_RANDOM")
  {}
  lemma FooRandomTail()
    ensures forall i :: 0 <= i < |BlockLayer| ==> !Matches(BlockLayer[i], "FOO_RANDOM")
    ensures forall i :: 0 <= i < |Nvme| ==> !Matches(Nvme[i], "FOO_RANDOM")
    ensures forall i :: 0 <= i < |GeneralInfrastructure| ==> !Matches(GeneralInfrastructure[i], "FOO_RANDOM")
    ensures forall i :: 0 <= i < |Acpi| ==> !Matches(Acpi[i], "FOO_RANDOM")
    ensures forall i :: 0 <= i < |Virtio| ==> !Matches(Virtio[i], "FOO_RANDOM")
  {}
}

=== FILE: keep_list.dfy ===
/** The allow-list of scripts/audit-modules.py:21-173 (`KEEP_PATTERNS` and
    `should_keep`). Every entry of the source table is either `^NAME$` or
    `^NAME`; the single character class in the table, `^NFS_V[234]`, is the
    union of three open prefixes. Module KeepSource checks this encoding
    against a second transcription of the table as regular expressions. */
module KeepList {

  /** `^NAME$` is `Exact(NAME)`; `^NAME` is `Prefix(NAME)`, an open family. */
  datatype Pattern = Exact(name: string) | Prefix(stem: string)

  /** A pattern matches a bare option name (the source uses `re.search`, and
      every pattern is anchored at the start with `^`). */
  predicate Matches(p: Pattern, name: string) {
    match p
    case Exact(s) => |name| == |s| && StartsWith(name, s)
    case Prefix(s) => StartsWith(name, s)
  }

  /** What the two pattern shapes mean: equality, or being a prefix. */
  lemma MatchesMeaning(p: Pattern, name: string)
    ensures Matches(p, name) <==> if p.Exact? then name == p.name else p.stem <= name
  {
    if p.Exact? && |name| == |p.name| && StartsWith(name, p.name) {
      assert name[..|p.name|] == name;
    }
  }

  /** `stem` is a prefix of `name`, decided character by character. */
  function StartsWith(name: string, stem: string): (r: bool)
    ensures r <==> stem <= name
  {
    if stem == [] then true
    else if name == [] || name[0] != stem[0] then false
    else StartsWith(name[1..], stem[1..])
  }

  /** A stem that disagrees with a name at some position is not its prefix. */
  lemma DiffersAt(name: string, stem: string, k: nat)
    requires k < |stem| && k < |name| && name[k] != stem[k]
    ensures !StartsWith(name, stem)
  {
  }

  /** GPU (scripts/audit-modules.py:23-26). */
  const Gpu: seq<Pattern> :=
    [
      Exact("DRM_RADEON"),
      Exact("DRM_RADEON_USERPTR"),
      Exact("DRM_QXL"),
      Exact("DRM_VKMS")
    ]

  /** Networking (scripts/audit-modules.py:29-39). */
  const Networking: seq<Pattern> :=
    [
      Exact("BRIDGE"),
      Exact("BRIDGE_NETFILTER"),
      Exact("VETH"),
      Exact("MACVLAN"),
      Exact("IPVLAN"),
      Exact("VXLAN"),
      Exact("DUMMY"),
      Prefix("VLAN_8021Q"),
      Exact("BONDING"),
      Exact("TUN"),
      Exact("TLS")
    ]

  /** Netfilter / nftables (scripts/audit-modules.py:42-49). */
  const Netfilter: seq<Pattern> :=
    [
      Prefix("NF_"),
      Prefix("NFT_"),
      Prefix("NETFILTER_XT_"),
      Prefix("IP_NF_"),
      Prefix("IP6_NF_"),
      Prefix("IP_SET"),
      Prefix("IP_VS"),
      Prefix("NETFILTER_NETLINK")
    ]

  /** NFS client (scripts/audit-modules.py:52-60). `^NFS_V[234]` is the three
      prefixes `NFS_V2`, `NFS_V3`, `NFS_V4`. */
  const NfsClient: seq<Pattern> :=
    [
      Exact("NFS_FS"),
      Prefix("NFS_V2"),
      Prefix("NFS_V3"),
      Prefix("NFS_V4"),
      Prefix("LOCKD"),
      Prefix("SUNRPC"),
      Prefix("RPCSEC_GSS"),
      Prefix("FSCACHE"),
      Prefix("CACHEFILES"),
      Exact("NFS_USE_KERNEL_DNS"),
      Exact("NFS_DEBUG")
    ]

  /** Filesystems (scripts/audit-modules.py:63-78). */
  const Filesystems: seq<Pattern> :=
    [
      Exact("HFSPLUS_FS"),
      Exact("HFS_FS"),
      Exact("BLK_DEV_DM"),
      Exact("DM_CRYPT"),
      Exact("DM_SNAPSHOT"),
      Exact("DM_MIRROR"),
      Exact("DM_ZERO"),
      Exact("DM_THIN_PROVISIONING"),
      Exact("DM_LOG_USERSPACE"),
      Prefix("QUOTA"),
      Exact("CIFS"),
      Exact("SMB_SERVER"),
      Exact("ISO9660_FS"),
      Exact("UDF_FS"),
      Prefix("SQUASHFS"),
      Exact("EROFS_FS")
    ]

  /** Wireless infrastructure (scripts/audit-modules.py:81-83). */
  const Wireless: seq<Pattern> :=
    [
      Exact("CFG80211"),
      Exact("MAC80211"),
      Prefix("LIB80211")
    ]

  /** USB peripherals (scripts/audit-modules.py:86-94). */
  const UsbPeripherals: seq<Pattern> :=
    [
      Exact("SND_USB_AUDIO"),
      Exact("USB_RTL8152"),
      Exact("HID_MULTITOUCH"),
      Exact("USB_SERIAL"),
      Exact("USB_SERIAL_GENERIC"),
      Exact("USB_SERIAL_FTDI_SIO"),
      Exact("USB_SERIAL_CH341"),
      Exact("USB_SERIAL_CP210X"),
      Exact("USB_ACM")
    ]

  /** FireWire (scripts/audit-modules.py:97-100). */
  const FireWire: seq<Pattern> :=
    [
      Exact("FIREWIRE"),
      Exact("FIREWIRE_OHCI"),
      Exact("FIREWIRE_SBP2"),
      Exact("FIREWIRE_NET")
    ]

  /** Intel platform monitoring (scripts/audit-modules.py:103-106). */
  const IntelPlatform: seq<Pattern> :=
    [
      Exact("INTEL_POWERCLAMP"),
      Prefix("INTEL_RAPL"),
      Prefix("INTEL_UNCORE"),
      Exact("INTEL_CSTATE")
    ]

  /** Crypto (scripts/audit-modules.py:109-132). */
  const Crypto: seq<Pattern> :=
    [
      Prefix("CRYPTO_USER_API"),
      Exact("CRYPTO_USER"),
      Prefix("CRYPTO_CRC32C"),
      Prefix("CRYPTO_CRCT10DIF"),
      Exact("CRYPTO_XXHASH"),
      Exact("CRYPTO_BLAKE2B"),
      Exact("CRYPTO_LZO"),
      Prefix("CRYPTO_LZ4"),
      Exact("CRYPTO_ZSTD"),
      Exact("CRYPTO_DEFLATE"),
      Exact("CRYPTO_XTS"),
      Exact("CRYPTO_ESSIV"),
      Exact("CRYPTO_ECHAINIV"),
      Exact("CRYPTO_CBC"),
      Exact("CRYPTO_ECB"),
      Exact("CRYPTO_CTR"),
      Exact("CRYPTO_CMAC"),
      Exact("CRYPTO_SEQIV"),
      Exact("CRYPTO_AUTHENC"),
      Exact("CRYPTO_CHACHA20POLY1305"),
      Exact("CRYPTO_GCM"),
      Exact("CRYPTO_CCM"),
      Exact("CRYPTO_DES"),
      Exact("CRYPTO_ARC4")
    ]

  /** Block layer (scripts/audit-modules.py:135-136). */
  const BlockLayer: seq<Pattern> :=
    [
      Exact("BLK_DEV_LOOP"),
      Exact("BLK_DEV_NBD")
    ]

  /** NVMe (scripts/audit-modules.py:139-142). */
  const Nvme: seq<Pattern> :=
    [
      Exact("NVME_CORE"),
      Exact("BLK_DEV_NVME"),
      Exact("NVME_KEYRING"),
      Exact("NVME_AUTH")
    ]

  /** General infrastructure (scripts/audit-modules.py:145-153). */
  const GeneralInfrastructure: seq<Pattern> :=
    [
      Exact("DNOTIFY"),
      Exact("DNS_RESOLVER"),
      Exact("KEYS_REQUEST_CACHE"),
      Exact("ZRAM"),
      Prefix("NET_SCH_"),
      Prefix("NET_CLS_"),
      Prefix("NET_ACT_"),
      Prefix("NET_EMATCH"),
      Prefix("TCF_")
    ]

  /** ACPI (scripts/audit-modules.py:156-158). */
  const Acpi: seq<Pattern> :=
    [
      Exact("ACPI_EC_DEBUGFS"),
      Exact("ACPI_VIDEO"),
      Exact("ACPI_TAD")
    ]

  /** Virtio (scripts/audit-modules.py:161). */
  const Virtio: seq<Pattern> :=
    [
      Exact("VIRTIO_BALLOON")
    ]
  /** The whole allow-list, in source order. */
  const KeepPatterns: seq<Pattern> :=
    Gpu + Networking + Netfilter + NfsClient + Filesystems + Wireless + UsbPeripherals + FireWire + IntelPlatform + Crypto + BlockLayer + Nvme + GeneralInfrastructure + Acpi + Virtio

  /** The loop of `should_keep`: true as soon as one pattern matches. */
  function AnyMatches(ps: seq<Pattern>, name: string): (r: bool)
    ensures r <==> exists i :: 0 <= i < |ps| && Matches(ps[i], name)
  {
    if ps == [] then false
    else if Matches(ps[0], name) then true
    else AnyMatches(ps[1..], name)
  }

  /** `should_keep(option_name)`: the name matches some allow-list pattern. */
  function ShouldKeep(name: string): (r: bool)
    ensures r <==> exists p :: p in KeepPatterns && Matches(p, name)
  {
    AnyMatches(KeepPatterns, name)
  }

  /** No pattern of `ps` matches `name`. */
  predicate NoneMatch(ps: seq<Pattern>, name: string) {
    forall i :: 0 <= i < |ps| ==> !Matches(ps[i], name)
  }

  /** `name` is rejected by the sections of scripts/audit-modules.py:23-49. */
  predicate RejectedByHead(name: string) {
    NoneMatch(Gpu, name) && NoneMatch(Networking, name) && NoneMatch(Netfilter, name)
  }

  /** `name` is rejected by the NFS client section, scripts/audit-modules.py:52-60. */
  predicate RejectedByNfs(name: string) {
    NoneMatch(NfsClient, name)
  }

  /** `name` is rejected by the sections of scripts/audit-modules.py:63-106. */
  predicate RejectedByMiddle(name: string) {
    NoneMatch(Filesystems, name) && NoneMatch(Wireless, name) && NoneMatch(UsbPeripherals, name)
    && NoneMatch(FireWire, name) && NoneMatch(IntelPlatform, name)
  }

  /** `name` is rejected by the crypto section, scripts/audit-modules.py:109-132. */
  predicate RejectedByCrypto(name: string) {
    NoneMatch(Crypto, name)
  }

  /** `name` is rejected by the sections of scripts/audit-modules.py:135-161. */
  predicate RejectedByTail(name: string) {
    NoneMatch(BlockLayer, name) && NoneMatch(Nvme, name)
    && NoneMatch(GeneralInfrastructure, name) && NoneMatch(Acpi, name) && NoneMatch(Virtio, name)
  }

  lemma NoneMatchAppend(a: seq<Pattern>, b: seq<Pattern>, name: string)
    requires NoneMatch(a, name) && NoneMatch(b, name)
    ensures NoneMatch(a + b, name)
  {
    forall i | 0 <= i < |a + b|
      ensures !Matches((a + b)[i], name)
    {
      if i >= |a| {
        assert (a + b)[i] == b[i - |a|];
      }
    }
  }

  /** A name every section rejects is not kept; the table is checked a few
      sections at a time to keep each proof small. */
  lemma RejectedBySections(name: string)
    requires RejectedByHead(name) && RejectedByNfs(name) && RejectedByMiddle(name)
    requires RejectedByCrypto(name) && RejectedByTail(name)
    ensures !ShouldKeep(name)
  {
    var ps := Gpu;
    NoneMatchAppend(ps, Networking, name); ps := ps + Networking;
    NoneMatchAppend(ps, Netfilter, name); ps := ps + Netfilter;
    NoneMatchAppend(ps, NfsClient, name); ps := ps + NfsClient;
    NoneMatchAppend(ps, Filesystems, name); ps := ps + Filesystems;
    NoneMatchAppend(ps, Wireless, name); ps := ps + Wireless;
    NoneMatchAppend(ps, UsbPeripherals, name); ps := ps + UsbPeripherals;
    NoneMatchAppend(ps, FireWire, name); ps := ps + FireWire;
    NoneMatchAppend(ps, IntelPlatform, name); ps := ps + IntelPlatform;
    NoneMatchAppend(ps, Crypto, name); ps := ps + Crypto;
    NoneMatchAppend(ps, BlockLayer, name); ps := ps + BlockLayer;
    NoneMatchAppend(ps, Nvme, name); ps := ps + Nvme;
    NoneMatchAppend(ps, GeneralInfrastructure, name); ps := ps + GeneralInfrastructure;
    NoneMatchAppend(ps, Acpi, name); ps := ps + Acpi;
    NoneMatchAppend(ps, Virtio, name); ps := ps + Virtio;
    assert ps == KeepPatterns;
  }
}

=== FILE: keep_regex.dfy ===
/** Regular expressions of the shapes the allow-list is written in
    (scripts/audit-modules.py:21-165): a reader for pattern text, the
    `re.search` semantics the source uses (line 171), and the proof that an
    Exact/Prefix entry of module KeepList means what its pattern text means. */
module KeepRegex {
  import opened Options
  import opened Chars
  import opened KeepList

  /** One position of a pattern: a literal character or a class like `[234]`. */
  datatype Atom = Char(c: char) | OneOf(chars: set<char>)

  /** `^atoms` or, when `toEnd` holds, `^atoms$`: the only two shapes in the table. */
  datatype Regex = Anchored(atoms: seq<Atom>, toEnd: bool)

  predicate AtomMatches(a: Atom, c: char) {
    match a
    case Char(x) => c == x
    case OneOf(cs) => c in cs
  }

  /** `re.search` of an `^`-anchored pattern: without MULTILINE a match can only
      start at index 0, and `$` matches at the end of the string or just before
      a final line feed. */
  predicate Search(r: Regex, s: string) {
    var n := |r.atoms|;
    && n <= |s|
    && (forall i :: 0 <= i < n ==> AtomMatches(r.atoms[i], s[i]))
    && (r.toEnd ==> n == |s| || (n + 1 == |s| && s[n] == '\n'))
  }

  function Literal(s: string): (r: seq<Atom>)
    ensures |r| == |s|
    ensures forall i :: 0 <= i < |s| ==> r[i] == Char(s[i])
  {
    seq(|s|, i requires 0 <= i < |s| => Char(s[i]))
  }

  /** The source text of an entry: `^NAME$` for Exact, `^NAME` for Prefix. */
  function ToRegex(p: Pattern): Regex {
    match p
    case Exact(s) => Anchored(Literal(s), true)
    case Prefix(s) => Anchored(Literal(s), false)
  }

  function ToRegexes(ps: seq<Pattern>): (rs: seq<Regex>)
    ensures |rs| == |ps|
    ensures forall i :: 0 <= i < |ps| ==> rs[i] == ToRegex(ps[i])
  {
    seq(|ps|, i requires 0 <= i < |ps| => ToRegex(ps[i]))
  }

  /** Characters with a meaning of their own in a Python pattern. */
  predicate IsMeta(c: char) {
    c in ".^$*+?{}[]\\|()"
  }

  /** No word character has a meaning of its own in a pattern. */
  lemma WordCharIsNotMeta(c: char)
    requires IsWordChar(c)
    ensures !IsMeta(c)
  {
  }

  /** Index of the first `]` at or after `i`, or `|s|` when there is none. */
  function ClassEnd(s: string, i: nat): (j: nat)
    requires i <= |s|
    ensures i <= j <= |s|
    ensures forall k :: i <= k < j ==> s[k] != ']'
    ensures j < |s| ==> s[j] == ']'
    decreases |s| - i
  {
    if i == |s| || s[i] == ']' then i else ClassEnd(s, i + 1)
  }

  /** The characters a class `[...]` lists. */
  function Members(s: string): (r: set<char>)
    ensures forall c :: c in r <==> c in s
  {
    set c | c in s
  }

  /** The atoms of a pattern body: plain characters, and classes `[...]` of
      plain characters. Anything else (repetition, alternation, groups,
      escapes, ranges, a negated or empty class) is not read. */
  function ReadAtoms(s: string): (r: Option<seq<Atom>>)
    decreases |s|
  {
    if s == [] then Some([])
    else if s[0] == '[' then
      var j := ClassEnd(s, 1);
      if j == |s| || j == 1 || exists k :: 1 <= k < j && (IsMeta(s[k]) || s[k] == '-') then None
      else
        match ReadAtoms(s[j + 1..])
        case None => None
        case Some(rest) => Some([OneOf(Members(s[1..j]))] + rest)
    else if IsMeta(s[0]) then None
    else
      match ReadAtoms(s[1..])
      case None => None
      case Some(rest) => Some([Char(s[0])] + rest)
  }

  /** `re.compile` of a pattern text of the shapes above: `^`, the atoms,
      and `$` when the text ends with one. Any other text reads as None. */
  function Compile(p: string): (r: Option<Regex>)
    ensures r.Some? ==> |p| > 0 && p[0] == '^'
    ensures r.Some? ==> (r.value.toEnd <==> |p| >= 2 && p[|p| - 1] == '$')
  {
    if |p| == 0 || p[0] != '^' then None
    else
      var toEnd := |p| >= 2 && p[|p| - 1] == '$';
      var body := if toEnd then p[1..|p| - 1] else p[1..];
      match ReadAtoms(body)
      case None => None
      case Some(atoms) => Some(Anchored(atoms, toEnd))
  }

  /** The name or stem of an entry. */
  function Word(p: Pattern): string {
    match p
    case Exact(s) => s
    case Prefix(s) => s
  }

  /** The pattern text of an encoded entry: `^NAME$` or `^NAME`. */
  function Write(p: Pattern): string {
    match p
    case Exact(s) => "^" + s + "$"
    case Prefix(s) => "^" + s
  }

  /** A run of word characters reads as one literal atom per character. */
  lemma {:induction false} ReadWordAtoms(s: string)
    requires forall k :: 0 <= k < |s| ==> IsWordChar(s[k])
    ensures ReadAtoms(s) == Some(Literal(s))
    decreases |s|
  {
    if s != [] {
      WordCharIsNotMeta(s[0]);
      ReadWordAtoms(s[1..]);
      assert Literal(s) == [Char(s[0])] + Literal(s[1..]);
    }
  }

  /** Word characters in front of a readable body read as literal atoms. */
  lemma {:induction false} ReadWordsThen(a: string, b: string)
    requires forall k :: 0 <= k < |a| ==> IsWordChar(a[k])
    requires ReadAtoms(b).Some?
    ensures ReadAtoms(a + b) == Some(Literal(a) + ReadAtoms(b).value)
    decreases |a|
  {
    if a != [] {
      WordCharIsNotMeta(a[0]);
      assert (a + b)[0] == a[0];
      assert (a + b)[1..] == a[1..] + b;
      ReadWordsThen(a[1..], b);
      var v := ReadAtoms(b).value;
      assert ReadAtoms(a + b) == Some([Char(a[0])] + (Literal(a[1..]) + v));
      assert Literal(a) == [Char(a[0])] + Literal(a[1..]);
      assert Literal(a) + v == [Char(a[0])] + (Literal(a[1..]) + v);
    } else {
      assert a + b == b && Literal(a) == [];
      assert Literal(a) + ReadAtoms(b).value == ReadAtoms(b).value;
    }
  }

  /** Reading the pattern text of an entry gives back the entry's regular
      expression: `^NAME$` is exact, `^NAME` is open. */
  lemma CompileWrite(p: Pattern)
    requires IsName(Word(p))
    ensures Compile(Write(p)) == Some(ToRegex(p))
  {
    var w, s := Write(p), Word(p);
    ReadWordAtoms(s);
    if p.Exact? {
      assert w[1..|w| - 1] == s;
    } else {
      assert w[|w| - 1] == s[|s| - 1];
      assert w[1..] == s;
    }
  }

  /** `^NFS_V[234]` (scripts/audit-modules.py:53). */
  const NfsVersions: Regex := Anchored(Literal("NFS_V") + [OneOf({'2', '3', '4'})], false)

  /** The class `[234]` reads as one atom accepting `2`, `3` or `4`. */
  lemma ReadVersionClass()
    ensures ReadAtoms("[234]") == Some([OneOf({'2', '3', '4'})])
  {
    var cls := "[234]";
    var j := ClassEnd(cls, 1);
    assert j == 4;
    assert !exists k :: 1 <= k < j && (IsMeta(cls[k]) || cls[k] == '-') by {
      assert forall k :: 1 <= k < 4 ==> !IsMeta(cls[k]) && cls[k] != '-';
    }
    assert cls[j + 1..] == [];
    assert ReadAtoms(cls) == Some([OneOf(Members(cls[1..j]))] + []);
    assert Members(cls[1..j]) == {'2', '3', '4'};
    assert [OneOf(Members(cls[1..j]))] + [] == [OneOf({'2', '3', '4'})];
  }

  /** The text `^NFS_V[234]` reads as the class pattern. */
  lemma CompileNfsVersions()
    ensures Compile("^NFS_V[234]") == Some(NfsVersions)
  {
    ReadVersionClass();
    ReadWordsThen("NFS_V", "[234]");
    assert "^NFS_V[234]"[1..] == "NFS_V" + "[234]";
  }

  /** The three open prefixes KeepList writes in place of `^NFS_V[234]`. */
  const NfsVersionFamily: seq<Pattern> := [Prefix("NFS_V2"), Prefix("NFS_V3"), Prefix("NFS_V4")]

  /** A table with `^NFS_V[234]` put back in place of the three prefixes at `k`. */
  function Splice(ps: seq<Pattern>, k: nat): seq<Regex>
    requires k + 3 <= |ps|
  {
    ToRegexes(ps[..k]) + [NfsVersions] + ToRegexes(ps[k + 3..])
  }

  /** A name without a line feed matches an encoded entry exactly when it
      matches the entry's regular expression. */
  lemma PatternAgreesWithRegex(p: Pattern, name: string)
    requires '\n' !in name
    ensures Matches(p, name) <==> Search(ToRegex(p), name)
  {
    MatchesMeaning(p, name);
    var s := if p.Exact? then p.name else p.stem;
    assert forall k :: 0 <= k < |name| ==> name[k] != '\n';
    if Search(ToRegex(p), name) {
      assert name[..|s|] == s;
      if p.Exact? {
        assert |name| == |s|;
        assert name == name[..|s|];
      }
    }
  }

  /** `^NFS_V[234]` is the union of the prefixes `NFS_V2`, `NFS_V3`, `NFS_V4`. */
  lemma NfsVersionsIsThreePrefixes(name: string)
    ensures Search(NfsVersions, name) <==>
              Matches(Prefix("NFS_V2"), name) || Matches(Prefix("NFS_V3"), name)
              || Matches(Prefix("NFS_V4"), name)
  {
    MatchesMeaning(Prefix("NFS_V2"), name);
    MatchesMeaning(Prefix("NFS_V3"), name);
    MatchesMeaning(Prefix("NFS_V4"), name);
    var atoms := NfsVersions.atoms;
    assert |atoms| == 6;
    if Search(NfsVersions, name) {
      assert name[..5] == "NFS_V" by {
        forall i | 0 <= i < 5 ensures name[i] == "NFS_V"[i] {
          assert AtomMatches(atoms[i], name[i]);
        }
      }
      assert AtomMatches(atoms[5], name[5]);
      assert name[5] in {'2', '3', '4'};
      assert name[..6] == "NFS_V" + [name[5]];
    }
    if "NFS_V2" <= name || "NFS_V3" <= name || "NFS_V4" <= name {
      assert |name| >= 6;
      forall i | 0 <= i < 6 ensures AtomMatches(atoms[i], name[i]) {
        assert name[i] == name[..6][i];
      }
    }
  }

  /** Replacing the three NFS prefixes by the one class pattern, anywhere in
      a table, does not change which line-feed-free names the table accepts. */
  lemma SplicedTableAgrees(ps: seq<Pattern>, k: nat, name: string)
    requires '\n' !in name
    requires k + 3 <= |ps| && ps[k..k + 3] == NfsVersionFamily
    ensures AnyMatches(ps, name) <==>
              exists i :: 0 <= i < |Splice(ps, k)| && Search(Splice(ps, k)[i], name)
  {
    var front, back := ps[..k], ps[k + 3..];
    assert ps == front + NfsVersionFamily + back;
    var rs := Splice(ps, k);
    if j :| 0 <= j < |ps| && Matches(ps[j], name) {
      var i := SplicedForward(front, back, name, j);
    }
    if i :| 0 <= i < |rs| && Search(rs[i], name) {
      var j := SplicedBackward(front, back, name, i);
    }
  }

  lemma SplicedForward(front: seq<Pattern>, back: seq<Pattern>, name: string, j: nat)
    returns (i: nat)
    requires '\n' !in name
    requires j < |front| + 3 + |back| && Matches((front + NfsVersionFamily + back)[j], name)
    ensures i < |front| + 1 + |back|
    ensures Search((ToRegexes(front) + [NfsVersions] + ToRegexes(back))[i], name)
  {
    var ps := front + NfsVersionFamily + back;
    var rs := ToRegexes(front) + [NfsVersions] + ToRegexes(back);
    var k := |front|;
    if j < k {
      i := j;
      assert ps[j] == front[j];
      assert rs[j] == ToRegex(front[j]);
      PatternAgreesWithRegex(front[j], name);
    } else if j < k + 3 {
      i := k;
      assert ps[j] == NfsVersionFamily[j - k];
      NfsVersionsIsThreePrefixes(name);
      assert rs[k] == NfsVersions;
    } else {
      i := j - 2;
      assert ps[j] == back[j - k - 3];
      assert rs[j - 2] == ToRegex(back[j - k - 3]);
      PatternAgreesWithRegex(back[j - k - 3], name);
    }
  }

  lemma SplicedBackward(front: seq<Pattern>, back: seq<Pattern>, name: string, i: nat)
    returns (j: nat)
    requires '\n' !in name
    requires i < |front| + 1 + |back|
    requires Search((ToRegexes(front) + [NfsVersions] + ToRegexes(back))[i], name)
    ensures j < |front| + 3 + |back| && Matches((front + NfsVersionFamily + back)[j], name)
  {
    var ps := front + NfsVersionFamily + back;
    var rs := ToRegexes(front) + [NfsVersions] + ToRegexes(back);
    var k := |front|;
    if i < k {
      j := i;
      assert rs[i] == ToRegex(front[i]);
      PatternAgreesWithRegex(front[i], name);
      assert ps[i] == front[i];
    } else if i == k {
      assert rs[k] == NfsVersions;
      NfsVersionsIsThreePrefixes(name);
      var v := if Matches(NfsVersionFamily[0], name) then 0
               else if Matches(NfsVersionFamily[1], name) then 1
               else 2;
      j := k + v;
      assert ps[k + v] == NfsVersionFamily[v];
    } else {
      j := i + 2;
      assert rs[i] == ToRegex(back[i - k - 1]);
      PatternAgreesWithRegex(back[i - k - 1], name);
      assert ps[i + 2] == back[i - k - 1];
    }
  }
}

=== FILE: keep_source.dfy ===
/** `KEEP_PATTERNS` (scripts/audit-modules.py:21-162) transcribed a second
    time, from the pattern texts, as the regular expressions they read as:
    `r'^NAME$'` is `Anchored(Literal(NAME), true)` and `r'^NAME'` is
    `Anchored(Literal(NAME), false)` (KeepRegex.CompileWrite), and
    `r'^NFS_V[234]'` ends in a class (KeepRegex.CompileNfsVersions). The
    proofs here show that `should_keep` over the Exact/Prefix encoding of
    module KeepList keeps exactly the names that `re.search` of some pattern
    of this table finds. */
module KeepSource {
  import opened Chars
  import opened ModuleLine
  import opened KeepList
  import opened KeepRegex

  /** GPU (scripts/audit-modules.py:23-26). */
  const GpuRegexes: seq<Regex> :=
    [
      Anchored(Literal("DRM_RADEON"), true),
      Anchored(Literal("DRM_RADEON_USERPTR"), true),
      Anchored(Literal("DRM_QXL"), true),
      Anchored(Literal("DRM_VKMS"), true)
    ]

  /** Networking (scripts/audit-modules.py:29-39). */
  const NetworkingRegexes: seq<Regex> :=
    [
      Anchored(Literal("BRIDGE"), true),
      Anchored(Literal("BRIDGE_NETFILTER"), true),
      Anchored(Literal("VETH"), true),
      Anchored(Literal("MACVLAN"), true),
      Anchored(Literal("IPVLAN"), true),
      Anchored(Literal("VXLAN"), true),
      Anchored(Literal("DUMMY"), true),
      Anchored(Literal("VLAN_8021Q"), false),
      Anchored(Literal("BONDING"), true),
      Anchored(Literal("TUN"), true),
      Anchored(Literal("TLS"), true)
    ]

  /** Netfilter / nftables (scripts/audit-modules.py:42-49). */
  const NetfilterRegexes: seq<Regex> :=
    [
      Anchored(Literal("NF_"), false),
      Anchored(Literal("NFT_"), false),
      Anchored(Literal("NETFILTER_XT_"), false),
      Anchored(Literal("IP_NF_"), false),
      Anchored(Literal("IP6_NF_"), false),
      Anchored(Literal("IP_SET"), false),
      Anchored(Literal("IP_VS"), false),
      Anchored(Literal("NETFILTER_NETLINK"), false)
    ]

  /** NFS client (scripts/audit-modules.py:52-60). */
  const NfsClientRegexes: seq<Regex> :=
    [
      Anchored(Literal("NFS_FS"), true),
      Anchored(Literal("NFS_V") + [OneOf({'2', '3', '4'})], false),
      Anchored(Literal("LOCKD"), false),
      Anchored(Literal("SUNRPC"), false),
      Anchored(Literal("RPCSEC_GSS"), false),
      Anchored(Literal("FSCACHE"), false),
      Anchored(Literal("CACHEFILES"), false),
      Anchored(Literal("NFS_USE_KERNEL_DNS"), true),
      Anchored(Literal("NFS_DEBUG"), true)
    ]

  /** Filesystems (scripts/audit-modules.py:63-78). */
  const FilesystemsRegexes: seq<Regex> :=
    [
      Anchored(Literal("HFSPLUS_FS"), true),
      Anchored(Literal("HFS_FS"), true),
      Anchored(Literal("BLK_DEV_DM"), true),
      Anchored(Literal("DM_CRYPT"), true),
      Anchored(Literal("DM_SNAPSHOT"), true),
      Anchored(Literal("DM_MIRROR"), true),
      Anchored(Literal("DM_ZERO"), true),
      Anchored(Literal("DM_THIN_PROVISIONING"), true),
      Anchored(Literal("DM_LOG_USERSPACE"), true),
      Anchored(Literal("QUOTA"), false),
      Anchored(Literal("CIFS"), true),
      Anchored(Literal("SMB_SERVER"), true),
      Anchored(Literal("ISO9660_FS"), true),
      Anchored(Literal("UDF_FS"), true),
      Anchored(Literal("SQUASHFS"), false),
      Anchored(Literal("EROFS_FS"), true)
    ]

  /** Wireless infrastructure (scripts/audit-modules.py:81-83). */
  const WirelessRegexes: seq<Regex> :=
    [
      Anchored(Literal("CFG80211"), true),
      Anchored(Literal("MAC80211"), true),
      Anchored(Literal("LIB80211"), false)
    ]

  /** USB peripherals (scripts/audit-modules.py:86-94). */
  const UsbPeripheralsRegexes: seq<Regex> :=
    [
      Anchored(Literal("SND_USB_AUDIO"), true),
      Anchored(Literal("USB_RTL8152"), true),
      Anchored(Literal("HID_MULTITOUCH"), true),
      Anchored(Literal("USB_SERIAL"), true),
      Anchored(Literal("USB_SERIAL_GENERIC"), true),
      Anchored(Literal("USB_SERIAL_FTDI_SIO"), true),
      Anchored(Literal("USB_SERIAL_CH341"), true),
      Anchored(Literal("USB_SERIAL_CP210X"), true),
      Anchored(Literal("USB_ACM"), true)
    ]

  /** FireWire (scripts/audit-modules.py:97-100). */
  const FireWireRegexes: seq<Regex> :=
    [
      Anchored(Literal("FIREWIRE"), true),
      Anchored(Literal("FIREWIRE_OHCI"), true),
      Anchored(Literal("FIREWIRE_SBP2"), true),
      Anchored(Literal("FIREWIRE_NET"), true)
    ]

  /** Intel platform monitoring (scripts/audit-modules.py:103-106). */
  const IntelPlatformRegexes: seq<Regex> :=
    [
      Anchored(Literal("INTEL_POWERCLAMP"), true),
      Anchored(Literal("INTEL_RAPL"), false),
      Anchored(Literal("INTEL_UNCORE"), false),
      Anchored(Literal("INTEL_CSTATE"), true)
    ]

  /** Crypto (scripts/audit-modules.py:109-132). */
  const CryptoRegexes: seq<Regex> :=
    [
      Anchored(Literal("CRYPTO_USER_API"), false),
      Anchored(Literal("CRYPTO_USER"), true),
      Anchored(Literal("CRYPTO_CRC32C"), false),
      Anchored(Literal("CRYPTO_CRCT10DIF"), false),
      Anchored(Literal("CRYPTO_XXHASH"), true),
      Anchored(Literal("CRYPTO_BLAKE2B"), true),
      Anchored(Literal("CRYPTO_LZO"), true),
      Anchored(Literal("CRYPTO_LZ4"), false),
      Anchored(Literal("CRYPTO_ZSTD"), true),
      Anchored(Literal("CRYPTO_DEFLATE"), true),
      Anchored(Literal("CRYPTO_XTS"), true),
      Anchored(Literal("CRYPTO_ESSIV"), true),
      Anchored(Literal("CRYPTO_ECHAINIV"), true),
      Anchored(Literal("CRYPTO_CBC"), true),
      Anchored(Literal("CRYPTO_ECB"), true),
      Anchored(Literal("CRYPTO_CTR"), true),
      Anchored(Literal("CRYPTO_CMAC"), true),
      Anchored(Literal("CRYPTO_SEQIV"), true),
      Anchored(Literal("CRYPTO_AUTHENC"), true),
      Anchored(Literal("CRYPTO_CHACHA20POLY1305"), true),
      Anchored(Literal("CRYPTO_GCM"), true),
      Anchored(Literal("CRYPTO_CCM"), true),
      Anchored(Literal("CRYPTO_DES"), true),
      Anchored(Literal("CRYPTO_ARC4"), true)
    ]

  /** Block layer (scripts/audit-modules.py:135-136). */
  const BlockLayerRegexes: seq<Regex> :=
    [
      Anchored(Literal("BLK_DEV_LOOP"), true),
      Anchored(Literal("BLK_DEV_NBD"), true)
    ]

  /** NVMe (scripts/audit-modules.py:139-142). */
  const NvmeRegexes: seq<Regex> :=
    [
      Anchored(Literal("NVME_CORE"), true),
      Anchored(Literal("BLK_DEV_NVME"), true),
      Anchored(Literal("NVME_KEYRING"), true),
      Anchored(Literal("NVME_AUTH"), true)
    ]

  /** General infrastructure (scripts/audit-modules.py:145-153). */
  const GeneralInfrastructureRegexes: seq<Regex> :=
    [
      Anchored(Literal("DNOTIFY"), true),
      Anchored(Literal("DNS_RESOLVER"), true),
      Anchored(Literal("KEYS_REQUEST_CACHE"), true),
      Anchored(Literal("ZRAM"), true),
      Anchored(Literal("NET_SCH_"), false),
      Anchored(Literal("NET_CLS_"), false),
      Anchored(Literal("NET_ACT_"), false),
      Anchored(Literal("NET_EMATCH"), false),
      Anchored(Literal("TCF_"), false)
    ]

  /** ACPI (scripts/audit-modules.py:156-158). */
  const AcpiRegexes: seq<Regex> :=
    [
      Anchored(Literal("ACPI_EC_DEBUGFS"), true),
      Anchored(Literal("ACPI_VIDEO"), true),
      Anchored(Literal("ACPI_TAD"), true)
    ]

  /** Virtio (scripts/audit-modules.py:161). */
  const VirtioRegexes: seq<Regex> :=
    [
      Anchored(Literal("VIRTIO_BALLOON"), true)
    ]

  /** The whole list, in source order. */
  const KeepRegexes: seq<Regex> :=
    GpuRegexes + NetworkingRegexes + NetfilterRegexes + NfsClientRegexes + FilesystemsRegexes + WirelessRegexes + UsbPeripheralsRegexes + FireWireRegexes + IntelPlatformRegexes + CryptoRegexes + BlockLayerRegexes + NvmeRegexes + GeneralInfrastructureRegexes + AcpiRegexes + VirtioRegexes

  /** Some regular expression of `rs` finds `name`. */
  predicate AnyFinds(rs: seq<Regex>, name: string) {
    exists i :: 0 <= i < |rs| && Search(rs[i], name)
  }

  /** A table matches a name without a line feed exactly when the regular
      expression of one of its entries finds it. */
  lemma SectionAgrees(ps: seq<Pattern>, name: string)
    requires '\n' !in name
    ensures AnyMatches(ps, name) <==> AnyFinds(ToRegexes(ps), name)
  {
    forall i | 0 <= i < |ps| ensures Matches(ps[i], name) <==> Search(ToRegexes(ps)[i], name) {
      PatternAgreesWithRegex(ps[i], name);
    }
  }

  /** A joined table finds a name exactly when one of its parts does. */
  lemma AnyFindsAppend(rs1: seq<Regex>, rs2: seq<Regex>, name: string)
    ensures AnyFinds(rs1 + rs2, name) <==> AnyFinds(rs1, name) || AnyFinds(rs2, name)
  {
    var rs := rs1 + rs2;
    if i :| 0 <= i < |rs| && Search(rs[i], name) {
      if i >= |rs1| {
        assert rs[i] == rs2[i - |rs1|];
      }
    }
    if i :| 0 <= i < |rs1| && Search(rs1[i], name) {
      assert rs[i] == rs1[i];
    }
    if i :| 0 <= i < |rs2| && Search(rs2[i], name) {
      assert rs[|rs1| + i] == rs2[i];
    }
  }

  /** A joined table matches a name exactly when one of its parts does. */
  lemma AnyMatchesAppend(ps1: seq<Pattern>, ps2: seq<Pattern>, name: string)
    ensures AnyMatches(ps1 + ps2, name) <==> AnyMatches(ps1, name) || AnyMatches(ps2, name)
  {
    var ps := ps1 + ps2;
    if i :| 0 <= i < |ps| && Matches(ps[i], name) {
      if i >= |ps1| {
        assert ps[i] == ps2[i - |ps1|];
      }
    }
    if i :| 0 <= i < |ps1| && Matches(ps1[i], name) {
      assert ps[i] == ps1[i];
    }
    if i :| 0 <= i < |ps2| && Matches(ps2[i], name) {
      assert ps[|ps1| + i] == ps2[i];
    }
  }

  /** Agreement of two parts carries over to the two parts joined. */
  lemma JoinAgrees(ps1: seq<Pattern>, rs1: seq<Regex>, ps2: seq<Pattern>, rs2: seq<Regex>, name: string)
    requires AnyMatches(ps1, name) <==> AnyFinds(rs1, name)
    requires AnyMatches(ps2, name) <==> AnyFinds(rs2, name)
    ensures AnyMatches(ps1 + ps2, name) <==> AnyFinds(rs1 + rs2, name)
  {
    AnyMatchesAppend(ps1, ps2, name);
    AnyFindsAppend(rs1, rs2, name);
  }

  // Each section of the transcription is compared with the same section of
  // the encoding.
  lemma GpuTranscribed()
    ensures ToRegexes(Gpu) == GpuRegexes
  {
  }

  lemma NetworkingTranscribed()
    ensures ToRegexes(Networking) == NetworkingRegexes
  {
  }

  lemma NetfilterTranscribed()
    ensures ToRegexes(Netfilter) == NetfilterRegexes
  {
  }

  lemma FilesystemsTranscribed()
    ensures ToRegexes(Filesystems) == FilesystemsRegexes
  {
  }

  lemma WirelessTranscribed()
    ensures ToRegexes(Wireless) == WirelessRegexes
  {
  }

  lemma UsbPeripheralsTranscribed()
    ensures ToRegexes(UsbPeripherals) == UsbPeripheralsRegexes
  {
  }

  lemma FireWireTranscribed()
    ensures ToRegexes(FireWire) == FireWireRegexes
  {
  }

  lemma IntelPlatformTranscribed()
    ensures ToRegexes(IntelPlatform) == IntelPlatformRegexes
  {
  }

  lemma CryptoTranscribed()
    ensures ToRegexes(Crypto) == CryptoRegexes
  {
  }

  lemma BlockLayerTranscribed()
    ensures ToRegexes(BlockLayer) == BlockLayerRegexes
  {
  }

  lemma NvmeTranscribed()
    ensures ToRegexes(Nvme) == NvmeRegexes
  {
  }

  lemma GeneralInfrastructureTranscribed()
    ensures ToRegexes(GeneralInfrastructure) == GeneralInfrastructureRegexes
  {
  }

  lemma AcpiTranscribed()
    ensures ToRegexes(Acpi) == AcpiRegexes
  {
  }

  lemma VirtioTranscribed()
    ensures ToRegexes(Virtio) == VirtioRegexes
  {
  }

  /** The NFS client section: `^NFS_V[234]` where the encoding has three
      prefixes. */
  lemma NfsClientTranscribed()
    ensures NfsClient[1..4] == NfsVersionFamily
    ensures Splice(NfsClient, 1) == NfsClientRegexes
  {
  }

  lemma NfsClientAgrees(name: string)
    requires '\n' !in name
    ensures AnyMatches(NfsClient, name) <==> AnyFinds(NfsClientRegexes, name)
  {
    NfsClientTranscribed();
    SplicedTableAgrees(NfsClient, 1, name);
  }

  /** The encoded sections from GPU to FireWire. */
  const FrontPatterns: seq<Pattern> :=
    Gpu + Networking + Netfilter + NfsClient + Filesystems + Wireless + UsbPeripherals + FireWire

  /** The transcribed sections from GPU to FireWire. */
  const FrontRegexes: seq<Regex> :=
    GpuRegexes + NetworkingRegexes + NetfilterRegexes + NfsClientRegexes + FilesystemsRegexes + WirelessRegexes + UsbPeripheralsRegexes + FireWireRegexes

  /** The sections from GPU to FireWire agree. */
  lemma FrontSectionsAgree(name: string)
    requires '\n' !in name
    ensures AnyMatches(FrontPatterns, name) <==> AnyFinds(FrontRegexes, name)
  {
    GpuTranscribed();
    SectionAgrees(Gpu, name);
    var ps, rs := Gpu, GpuRegexes;
    NetworkingTranscribed();
    SectionAgrees(Networking, name);
    JoinAgrees(ps, rs, Networking, NetworkingRegexes, name);
    ps, rs := ps + Networking, rs + NetworkingRegexes;
    NetfilterTranscribed();
    SectionAgrees(Netfilter, name);
    JoinAgrees(ps, rs, Netfilter, NetfilterRegexes, name);
    ps, rs := ps + Netfilter, rs + NetfilterRegexes;
    NfsClientAgrees(name);
    JoinAgrees(ps, rs, NfsClient, NfsClientRegexes, name);
    ps, rs := ps + NfsClient, rs + NfsClientRegexes;
    FilesystemsTranscribed();
    SectionAgrees(Filesystems, name);
    JoinAgrees(ps, rs, Filesystems, FilesystemsRegexes, name);
    ps, rs := ps + Filesystems, rs + FilesystemsRegexes;
    WirelessTranscribed();
    SectionAgrees(Wireless, name);
    JoinAgrees(ps, rs, Wireless, WirelessRegexes, name);
    ps, rs := ps + Wireless, rs + WirelessRegexes;
    UsbPeripheralsTranscribed();
    SectionAgrees(UsbPeripherals, name);
    JoinAgrees(ps, rs, UsbPeripherals, UsbPeripheralsRegexes, name);
    ps, rs := ps + UsbPeripherals, rs + UsbPeripheralsRegexes;
    FireWireTranscribed();
    SectionAgrees(FireWire, name);
    JoinAgrees(ps, rs, FireWire, FireWireRegexes, name);
    ps, rs := ps + FireWire, rs + FireWireRegexes;
    assert ps == FrontPatterns && rs == FrontRegexes;
  }

  /** For a name without a line feed (every option name), `should_keep` over
      the encoded table agrees with `re.search` over the transcribed patterns. */
  lemma ShouldKeepIsRegexSearch(name: string)
    requires '\n' !in name
    ensures ShouldKeep(name) <==> exists i :: 0 <= i < |KeepRegexes| && Search(KeepRegexes[i], name)
  {
    FrontSectionsAgree(name);
    var ps, rs := FrontPatterns, FrontRegexes;
    IntelPlatformTranscribed();
    SectionAgrees(IntelPlatform, name);
    JoinAgrees(ps, rs, IntelPlatform, IntelPlatformRegexes, name);
    ps, rs := ps + IntelPlatform, rs + IntelPlatformRegexes;
    CryptoTranscribed();
    SectionAgrees(Crypto, name);
    JoinAgrees(ps, rs, Crypto, CryptoRegexes, name);
    ps, rs := ps + Crypto, rs + CryptoRegexes;
    BlockLayerTranscribed();
    SectionAgrees(BlockLayer, name);
    JoinAgrees(ps, rs, BlockLayer, BlockLayerRegexes, name);
    ps, rs := ps + BlockLayer, rs + BlockLayerRegexes;
    NvmeTranscribed();
    SectionAgrees(Nvme, name);
    JoinAgrees(ps, rs, Nvme, NvmeRegexes, name);
    ps, rs := ps + Nvme, rs + NvmeRegexes;
    GeneralInfrastructureTranscribed();
    SectionAgrees(GeneralInfrastructure, name);
    JoinAgrees(ps, rs, GeneralInfrastructure, GeneralInfrastructureRegexes, name);
    ps, rs := ps + GeneralInfrastructure, rs + GeneralInfrastructureRegexes;
    AcpiTranscribed();
    SectionAgrees(Acpi, name);
    JoinAgrees(ps, rs, Acpi, AcpiRegexes, name);
    ps, rs := ps + Acpi, rs + AcpiRegexes;
    VirtioTranscribed();
    SectionAgrees(Virtio, name);
    JoinAgrees(ps, rs, Virtio, VirtioRegexes, name);
    ps, rs := ps + Virtio, rs + VirtioRegexes;
    assert ps == KeepPatterns && rs == KeepRegexes;
  }

  /** Every option name the line template extracts is decided by the table
      exactly as `re.search` over the transcribed patterns decides it. */
  lemma ParsedNameIsSearchedAsRegex(line: string)
    requires ParseModuleLine(line).Some?
    ensures var name := ParseModuleLine(line).value;
            ShouldKeep(name) <==> exists i :: 0 <= i < |KeepRegexes| && Search(KeepRegexes[i], name)
  {
    var name := ParseModuleLine(line).value;
    assert IsModuleAssignment(line, name);
    NameHasNoNewline(name);
    ShouldKeepIsRegexSearch(name);
  }
}

=== FILE: module_line.dfy ===
/** The module-assignment template of scripts/audit-modules.py:189,
    `^(CONFIG_)(\w+)=m\s*$`: the fixed prefix, an option name, the literal
    `=m`, then only whitespace to the end of the line. */
module ModuleLine {
  import opened Options
  import opened Chars

  /** The literal first group of the template. */
  const ConfigPrefix: string := "CONFIG_"

  /** Declarative reading of the template: `line` is `CONFIG_` + `name` + `=m`
      followed by whitespace only. */
  predicate IsModuleAssignment(line: string, name: string) {
    && IsName(name)
    && |ConfigPrefix| + |name| + 2 <= |line|
    && line[..|ConfigPrefix| + |name| + 2] == ConfigPrefix + name + "=m"
    && AllSpace(line[|ConfigPrefix| + |name| + 2..])
  }

  /** The line matches the template for some name. */
  ghost predicate IsModuleLine(line: string) {
    exists name :: IsModuleAssignment(line, name)
  }

  /** End of the longest run of word characters starting at `i`. */
  function WordRunEnd(s: string, i: nat): (j: nat)
    requires i <= |s|
    ensures i <= j <= |s|
    ensures forall k :: i <= k < j ==> IsWordChar(s[k])
    ensures j == |s| || !IsWordChar(s[j])
    decreases |s| - i
  {
    if i < |s| && IsWordChar(s[i]) then WordRunEnd(s, i + 1) else i
  }

  /** The word run from `i` ends at the first non-word character `j`. */
  lemma WordRunEndIs(s: string, i: nat, j: nat)
    requires i <= j <= |s|
    requires forall k :: i <= k < j ==> IsWordChar(s[k])
    requires j == |s| || !IsWordChar(s[j])
    ensures WordRunEnd(s, i) == j
    decreases j - i
  {
    if i < j {
      WordRunEndIs(s, i + 1, j);
    }
  }

  /** The regex engine's view of the template: the captured name, if the whole
      line matches. `\w+` must stop at the `=` (not a word character), so the
      name is the maximal word run after the prefix. */
  function ParseModuleLine(line: string): (r: Option<string>)
    ensures forall name {:trigger IsModuleAssignment(line, name)} ::
              IsModuleAssignment(line, name) <==> r == Some(name)
  {
    var p := |ConfigPrefix|;
    if |line| < p || line[..p] != ConfigPrefix then
      NoPrefix(line);
      None
    else
      var e := WordRunEnd(line, p);
      RunDeterminesName(line, e);
      if e == p || |line| < e + 2 || line[e..e + 2] != "=m" || !AllSpace(line[e + 2..]) then
        None
      else
        RunFitsTemplate(line, e);
        Some(line[p..e])
  }

  /** A non-empty word run after the prefix, followed by `=m` and whitespace,
      is a name the template accepts. */
  lemma RunFitsTemplate(line: string, e: nat)
    requires |ConfigPrefix| < e && e + 2 <= |line|
    requires line[..|ConfigPrefix|] == ConfigPrefix
    requires forall k :: |ConfigPrefix| <= k < e ==> IsWordChar(line[k])
    requires line[e..e + 2] == "=m" && AllSpace(line[e + 2..])
    ensures IsModuleAssignment(line, line[|ConfigPrefix|..e])
  {
    var p := |ConfigPrefix|;
    assert line[..e + 2] == line[..p] + line[p..e] + line[e..e + 2];
  }

  lemma NoPrefix(line: string)
    requires |line| < |ConfigPrefix| || line[..|ConfigPrefix|] != ConfigPrefix
    ensures forall name :: !IsModuleAssignment(line, name)
  {
    forall name | IsModuleAssignment(line, name)
      ensures false
    {
    }
  }

  /** Any name the template accepts is exactly the word run ending at `e`. */
  lemma RunDeterminesName(line: string, e: nat)
    requires |ConfigPrefix| <= e <= |line|
    requires forall k :: |ConfigPrefix| <= k < e ==> IsWordChar(line[k])
    requires e == |line| || !IsWordChar(line[e])
    ensures forall name :: IsModuleAssignment(line, name) ==>
              && e == |ConfigPrefix| + |name|
              && name == line[|ConfigPrefix|..e]
              && e + 2 <= |line|
              && line[e..e + 2] == "=m"
              && AllSpace(line[e + 2..])
  {
    forall name | IsModuleAssignment(line, name)
      ensures e == |ConfigPrefix| + |name|
    {
      RunEndsAtName(line, e, name);
    }
    forall name | IsModuleAssignment(line, name)
      ensures name == line[|ConfigPrefix|..|ConfigPrefix| + |name|]
      ensures line[|ConfigPrefix| + |name|..|ConfigPrefix| + |name| + 2] == "=m"
    {
      AssignmentPieces(line, name);
    }
  }

  /** The word run after the prefix stops exactly where a fitting name ends. */
  lemma RunEndsAtName(line: string, e: nat, name: string)
    requires |ConfigPrefix| <= e <= |line|
    requires forall k :: |ConfigPrefix| <= k < e ==> IsWordChar(line[k])
    requires e == |line| || !IsWordChar(line[e])
    requires IsModuleAssignment(line, name)
    ensures e == |ConfigPrefix| + |name|
  {
    var p := |ConfigPrefix|;
    var pre := line[..p + |name| + 2];
    assert pre == ConfigPrefix + name + "=m";
    assert forall k :: p <= k < p + |name| ==> line[k] == pre[k] == name[k - p];
    assert line[p + |name|] == pre[p + |name|] == '=';
  }

  /** A fitting line splits into the prefix, the name and `=m`. */
  lemma AssignmentPieces(line: string, name: string)
    requires IsModuleAssignment(line, name)
    ensures name == line[|ConfigPrefix|..|ConfigPrefix| + |name|]
    ensures line[|ConfigPrefix| + |name|..|ConfigPrefix| + |name| + 2] == "=m"
  {
    var p := |ConfigPrefix|;
    var pre := line[..p + |name| + 2];
    assert pre == ConfigPrefix + name + "=m";
    assert name == pre[p..p + |name|];
    assert "=m" == pre[p + |name|..];
  }

  /** Any name followed by `=m` and whitespace parses back to that name. */
  lemma TemplateLineParses(name: string, ws: string)
    requires IsName(name) && AllSpace(ws)
    ensures ParseModuleLine(ConfigPrefix + name + "=m" + ws) == Some(name)
  {
    var line := ConfigPrefix + name + "=m" + ws;
    var k := |ConfigPrefix| + |name| + 2;
    assert line[..k] == ConfigPrefix + name + "=m";
    assert line[k..] == ws;
    assert IsModuleAssignment(line, name);
  }

  /** A parsed line is a template line. */
  lemma ParsedIsModuleLine(line: string)
    requires ParseModuleLine(line).Some?
    ensures IsModuleLine(line)
  {
    assert IsModuleAssignment(line, ParseModuleLine(line).value);
  }

  /** Two names cannot both fit the same template line. */
  lemma NameIsUnique(line: string, a: string, b: string)
    requires IsModuleAssignment(line, a) && IsModuleAssignment(line, b)
    ensures a == b
  {
    var r := ParseModuleLine(line);
  }
}

=== FILE: options.dfy ===
/** The optional value used where the source tests a regular-expression match
    object for truth (`if m:`): either no match, or the captured value. */
module Options {

  datatype Option<+T> = None | Some(value: T)
}

=== FILE: rewrite.dfy ===
/** The per-line step of `audit_config` (scripts/audit-modules.py:188-201):
    a module assignment becomes built-in or a "not set" comment, every other
    line is passed through untouched. The allow-list is a parameter; the
    source's own table is KeepList.KeepPatterns. */
module Rewrite {
  import opened Options
  import opened Chars
  import opened ModuleLine
  import opened KeepList

  /** What the step did with one line; `Unchanged` is the pass-through branch. */
  datatype Outcome = Kept(name: string) | Disabled(name: string) | Unchanged

  datatype LineResult = LineResult(text: string, outcome: Outcome)

  /** The built-in form written for a kept option (line 194). */
  function BuiltInForm(name: string): string {
    ConfigPrefix + name + "=y\n"
  }

  /** The comment written for a disabled option (line 197). */
  function NotSetForm(name: string): string {
    "# " + ConfigPrefix + name + " is not set\n"
  }

  /** One iteration of the loop body. */
  function RewriteLine(allow: seq<Pattern>, line: string): (r: LineResult)
    ensures forall name {:trigger IsModuleAssignment(line, name)} ::
              IsModuleAssignment(line, name) ==>
                r == if AnyMatches(allow, name) then LineResult(BuiltInForm(name), Kept(name))
                     else LineResult(NotSetForm(name), Disabled(name))
    ensures (forall name :: !IsModuleAssignment(line, name)) ==> r == LineResult(line, Unchanged)
    ensures r.outcome == Unchanged <==> !IsModuleLine(line)
  {
    match ParseModuleLine(line)
    case Some(name) =>
      assert IsModuleAssignment(line, name);
      if AnyMatches(allow, name) then LineResult(BuiltInForm(name), Kept(name))
      else LineResult(NotSetForm(name), Disabled(name))
    case None => LineResult(line, Unchanged)
  }

  /** Every name followed by `=m` and whitespace is rewritten by whether the
      allow-list keeps it. */
  lemma RewritesTemplateLine(allow: seq<Pattern>, name: string, ws: string)
    requires IsName(name) && AllSpace(ws)
    ensures RewriteLine(allow, ConfigPrefix + name + "=m" + ws)
            == if AnyMatches(allow, name) then LineResult(BuiltInForm(name), Kept(name))
               else LineResult(NotSetForm(name), Disabled(name))
  {
    TemplateLineParses(name, ws);
  }

  /** The built-in form never fits the template: after the name comes `=y`. */
  lemma BuiltInFormIsNotModuleLine(name: string)
    requires IsName(name)
    ensures forall other :: !IsModuleAssignment(BuiltInForm(name), other)
  {
    var line := BuiltInForm(name);
    var p := |ConfigPrefix|;
    var e := p + |name|;
    assert line[..p] == ConfigPrefix;
    assert forall k :: p <= k < e ==> line[k] == name[k - p];
    assert line[e..e + 2] == "=y";
    WordRunEndIs(line, p, e);
    assert ParseModuleLine(line) == None;
  }

  /** The "not set" comment never fits the template: it starts with `#`. */
  lemma NotSetFormIsNotModuleLine(name: string)
    ensures forall other :: !IsModuleAssignment(NotSetForm(name), other)
  {
    var line := NotSetForm(name);
    assert line[0] == '#';
    NoPrefix(line);
  }

  /** Whatever the step writes is a line the step leaves alone. */
  lemma RewriteIsIdempotent(allow: seq<Pattern>, line: string)
    ensures var once := RewriteLine(allow, line).text;
            RewriteLine(allow, once) == LineResult(once, Unchanged)
  {
    match ParseModuleLine(line)
    case Some(name) =>
      BuiltInFormIsNotModuleLine(name);
      NotSetFormIsNotModuleLine(name);
    case None =>
  }
}

=== FILE: scenarios.dfy ===
/** What the per-line step does with concrete lines: the behaviours the
    template at scripts/audit-modules.py:189 and the rewrites at lines 194
    and 197 promise. The lemmas about kept or disabled names take any
    allow-list that does (or does not) keep the name; KeepFamilies shows
    the source's own list is such a list for each name used here. */
module Scenarios {
  import opened Chars
  import opened ModuleLine
  import opened KeepList
  import opened KeepFamilies
  import opened Rewrite
  import opened ConfigAudit

  /** `CONFIG_BRIDGE=m` becomes built-in when `BRIDGE` is allowed, as it is
      by the kernel list (KeepFamilies.ExactPatternNeedsEquality). */
  lemma BridgeModuleIsBuiltIn(allow: seq<Pattern>)
    requires AnyMatches(allow, "BRIDGE")
    ensures RewriteLine(allow, "CONFIG_BRIDGE=m\n")
            == LineResult("CONFIG_BRIDGE=y\n", Kept("BRIDGE"))
  {
    BridgeSpelling();
    RewritesTemplateLine(allow, "BRIDGE", "\n");
  }

  // The literal lines spelled out as the template pieces and rewrite forms.
  // These literal string equalities are proved in lemmas of their own: in
  // the context of the scenario that uses them they cost the solver far more.
  lemma BridgeSpelling()
    ensures "CONFIG_BRIDGE=m\n" == ConfigPrefix + "BRIDGE" + "=m" + "\n"
    ensures BuiltInForm("BRIDGE") == "CONFIG_BRIDGE=y\n"
  {
  }

  /** `CONFIG_NF_TABLES=m` becomes built-in when `NF_TABLES` is allowed, as
      it is by the kernel list's open `NF_` family
      (KeepFamilies.OpenPatternsKeepFamilies). */
  lemma NfTablesModuleIsBuiltIn(allow: seq<Pattern>)
    requires AnyMatches(allow, "NF_TABLES")
    ensures RewriteLine(allow, "CONFIG_NF_TABLES=m\n")
            == LineResult("CONFIG_NF_TABLES=y\n", Kept("NF_TABLES"))
  {
    NfTablesSpelling();
    RewritesTemplateLine(allow, "NF_TABLES", "\n");
  }

  // The literal lines spelled out as the template pieces and rewrite forms.
  lemma NfTablesSpelling()
    ensures "CONFIG_NF_TABLES=m\n" == ConfigPrefix + "NF_TABLES" + "=m" + "\n"
    ensures BuiltInForm("NF_TABLES") == "CONFIG_NF_TABLES=y\n"
  {
  }

  /** `CONFIG_FOO_RANDOM=m` is commented out when no entry keeps it, as none
      of the kernel list does (KeepFamilies.UnlistedOptionIsNotKept). */
  lemma UnlistedModuleIsDisabled(allow: seq<Pattern>)
    requires !AnyMatches(allow, "FOO_RANDOM")
    ensures RewriteLine(allow, "CONFIG_FOO_RANDOM=m\n")
            == LineResult("# CONFIG_FOO_RANDOM is not set\n", Disabled("FOO_RANDOM"))
  {
    FooRandomSpelling();
    RewritesTemplateLine(allow, "FOO_RANDOM", "\n");
  }

  // The literal lines spelled out as the template pieces and rewrite forms.
  lemma FooRandomSpelling()
    ensures "CONFIG_FOO_RANDOM=m\n" == ConfigPrefix + "FOO_RANDOM" + "=m" + "\n"
    ensures NotSetForm("FOO_RANDOM") == "# CONFIG_FOO_RANDOM is not set\n"
  {
  }

  /** Trailing whitespace after `=m` still fits the template; the rewrite
      always ends in a single line feed. */
  lemma TrailingWhitespaceIsAccepted(allow: seq<Pattern>)
    requires AnyMatches(allow, "BRIDGE")
    ensures RewriteLine(allow, "CONFIG_BRIDGE=m \t\U{000C}\U{001F}\n")
            == LineResult("CONFIG_BRIDGE=y\n", Kept("BRIDGE"))
  {
    TrailingWhitespaceSpelling();
    RewritesTemplateLine(allow, "BRIDGE", " \t\U{000C}\U{001F}\n");
  }

  // The literal lines spelled out as the template pieces and rewrite forms.
  lemma TrailingWhitespaceSpelling()
    ensures "CONFIG_BRIDGE=m \t\U{000C}\U{001F}\n" == ConfigPrefix + "BRIDGE" + "=m" + " \t\U{000C}\U{001F}\n"
    ensures BuiltInForm("BRIDGE") == "CONFIG_BRIDGE=y\n"
  {
  }

  /** A last line without a line feed still fits the template, and its
      rewrite gains one. */
  lemma MissingLineFeedIsAccepted(allow: seq<Pattern>)
    requires AnyMatches(allow, "BRIDGE")
    ensures RewriteLine(allow, "CONFIG_BRIDGE=m")
            == LineResult("CONFIG_BRIDGE=y\n", Kept("BRIDGE"))
  {
    MissingLineFeedSpelling();
    RewritesTemplateLine(allow, "BRIDGE", "");
  }

  // The literal lines spelled out as the template pieces and rewrite forms.
  lemma MissingLineFeedSpelling()
    ensures "CONFIG_BRIDGE=m" == ConfigPrefix + "BRIDGE" + "=m" + ""
    ensures BuiltInForm("BRIDGE") == "CONFIG_BRIDGE=y\n"
  {
  }

  /** With the kernel list itself: `BRIDGE` is kept. */
  lemma KernelListBuildsInBridge()
    ensures RewriteLine(KeepPatterns, "CONFIG_BRIDGE=m\n")
            == LineResult("CONFIG_BRIDGE=y\n", Kept("BRIDGE"))
  {
    ExactPatternNeedsEquality();
    BridgeModuleIsBuiltIn(KeepPatterns);
  }

  /** With the kernel list itself: `NF_TABLES` is kept. */
  lemma KernelListBuildsInNfTables()
    ensures RewriteLine(KeepPatterns, "CONFIG_NF_TABLES=m\n")
            == LineResult("CONFIG_NF_TABLES=y\n", Kept("NF_TABLES"))
  {
    OpenPatternsKeepFamilies();
    NfTablesModuleIsBuiltIn(KeepPatterns);
  }

  /** With the kernel list itself: `FOO_RANDOM` is disabled. */
  lemma KernelListDisablesUnlisted()
    ensures RewriteLine(KeepPatterns, "CONFIG_FOO_RANDOM=m\n")
            == LineResult("# CONFIG_FOO_RANDOM is not set\n", Disabled("FOO_RANDOM"))
  {
    UnlistedOptionIsNotKept();
    UnlistedModuleIsDisabled(KeepPatterns);
  }

  /** Lines already in built-in or "not set" form are passed through. */
  lemma SettledLinesPassThrough(allow: seq<Pattern>)
    ensures RewriteLine(allow, "CONFIG_BRIDGE=y\n") == LineResult("CONFIG_BRIDGE=y\n", Unchanged)
    ensures RewriteLine(allow, "# CONFIG_TUN is not set\n")
            == LineResult("# CONFIG_TUN is not set\n", Unchanged)
  {
    assert "CONFIG_BRIDGE=y\n" == BuiltInForm("BRIDGE");
    BuiltInFormIsNotModuleLine("BRIDGE");
    assert "# CONFIG_TUN is not set\n" == NotSetForm("TUN");
    NotSetFormIsNotModuleLine("TUN");
  }

  /** A blank line is passed through. */
  lemma BlankLinePassesThrough(allow: seq<Pattern>)
    ensures RewriteLine(allow, "\n") == LineResult("\n", Unchanged)
  {
    NoPrefix("\n");
  }

  /** `CONFIG_=m` has no name (`\w+` needs one character) and is passed through. */
  lemma EmptyNamePassesThrough(allow: seq<Pattern>)
    ensures RewriteLine(allow, "CONFIG_=m\n") == LineResult("CONFIG_=m\n", Unchanged)
  {
    var line := "CONFIG_=m\n";
    assert line[7] == '=';
    WordRunEndIs(line, 7, 7);
    RunDeterminesName(line, 7);
  }

  /** Anything but whitespace after `=m` (here a comment) leaves the line alone. */
  lemma TrailingCommentPassesThrough(allow: seq<Pattern>)
    ensures RewriteLine(allow, "CONFIG_X=m # c\n") == LineResult("CONFIG_X=m # c\n", Unchanged)
  {
    var line := "CONFIG_X=m # c\n";
    assert IsWordChar(line[7]) && line[8] == '=';
    WordRunEndIs(line, 7, 8);
    assert line[11] == '#';
    assert !AllSpace(line[10..]);
    RunDeterminesName(line, 8);
  }

  /** An empty configuration stays empty and reports nothing. */
  lemma EmptyConfigIsUnchanged(allow: seq<Pattern>)
    ensures Audit(allow, []) == AuditResult([], [], [])
  {
  }
}
